=== FILE: README.md ===
# Data science agent: the generate, test, decide and regenerate loop

The data science agent is a LangGraph pipeline. It loads a dataset and its RDF metadata and asks a
language model for a summary and visualization goals. Then it has the model write a Python or R
script that draws the plots. The script is run, the model judges the captured output, and the
script is regenerated until the model is satisfied or a budget of `MAX_REGENERATION_ATTEMPTS`
regenerations is spent. The repository holds two snapshots of this loop:

- the current one under `src/data_science_agent/`, whose nodes also record token and cost metadata;
- an older single-file one in `agent.py`, with a fixed budget of three and only two routes.

This project models that loop in Dafny. It also models the small pieces around it: locale selection,
the two-language prompt table, the metadata projection, the RDF predicate filter, the output-directory
housekeeping and the VER (visualization error rate) counts of the statistics report.

How the model is built:

- **The state.** The agent state is a class (`State.AgentState`, `LegacyAgent.LegacyState`) whose
  fields the node methods update in place. `Snapshot()` collects those fields in a datatype.
- **Node contracts.** Each node method is specified by a pure function of the old snapshot and the
  old directory. These are `PipelineUtils.Generated`, `CodeRegeneration.Regenerated`,
  `RefactorCode.Refactored` and `CodeGeneration.GeneratedVisualizations`. The lemmas about these
  functions state what each node changes and what it leaves alone.
- **The output directory.** It is a class over a map from names to regular files or folders
  (`OutputDir.Directory`).
- **Outside inputs.** Language model calls are function parameters from the conversation to an
  answer. The subprocess is a function from the command to its result. The files the operating
  system refuses to delete are a set. The environment variables are `Option<string>` inputs.
- **Errors.** Python exceptions are `Err`/`Fail` values carrying the exception's class and
  message.
- **The whole loop.** `ControlLoop.Loop` runs the test, decide and regenerate cycle with the test
  results and the model's verdicts given per attempt count. The budget bounds are proved about it.

Notes on the model:

- `excluded_predicates` in `pipeline/metadata_analysis.py` contains `DC.format`. `DC` is an rdflib
  `Namespace`, a subclass of `str`, so `DC.format` is the bound method `str.format` and not the
  Dublin Core URI. Its `str()` is the method's repr. The line that adds
  `"http://purl.org/dc/terms/format"` by hand is therefore what excludes that predicate.
  `MetadataAnalysis.ManualAddIsNeeded` proves the set without it lacks the URI. That holds for
  every attribute name that is a `str` method.
- The current script is written as `generated_plots.<ext>`. The keep-list of `clear_output_dir`
  names `generate_plots.r` and `generate_plots.py`, so clearing deletes the previous script.
  `PipelineUtils.ClearingDeletesTheScript` proves this. The nodes that clear write a new script
  afterwards, or, in the current generate nodes, write none.
- The routing function of the current snapshot answers `"judge"` where the graph expects
  `"evaluate"`. See "## Findings". The node method `TestingEvaluation.DecideRegenerateCode` and the
  loop use the corrected route.
- Neither current generate node records `script_path`, and no node before them sets it, so the
  first `test_generated_code` raises `KeyError('script_path')` and the regeneration cycle is never
  reached in the current graph. See "## Findings". `FirstPass.FirstTestAsWritten` proves this;
  `ControlLoop.Loop` describes the cycle as it would run once the script path is recorded.

## Model

| member | source | states |
|---|---|---|
| Config.LoadLanguage | src/data_science_agent/utils/config.py:8-18 | an unset or empty `AGENT_LANGUAGE` gives DE; a value whose lower-cased form starts with "de" gives DE; the result is EN exactly when the lower-cased value starts with "en", so every other value falls back to DE |
| Config.MaxRegenerationAttempts | src/data_science_agent/utils/config.py:23 | an unset variable gives 3; the decimal text of any integer n is read as n; an empty value raises |
| Strings.Lower | src/data_science_agent/utils/config.py:12 | `str.lower` keeps the length and lower-cases each ASCII capital |
| Strings.IntToString | src/data_science_agent/pipeline/statistics.py:21 | `str(i)` is non-empty, starts with '-' exactly for negatives and ends in a digit |
| Strings.ParseInt | src/data_science_agent/utils/config.py:23 | `int(s)` succeeds only on non-empty text and is non-negative when the text starts with a digit |
| Strings.ParseIntOfIntToString | src/data_science_agent/utils/config.py:23 | reading back the decimal text of any integer gives that integer |
| Strings.IntToStringInjective | src/data_science_agent/pipeline/statistics.py:21 | distinct attempt numbers give distinct VER keys |
| PromptTable.GetPrompt | src/data_science_agent/language/prompt.py:12-23 | a language whose text is "de" (or "en"), the member or the plain string alike, gives that table's present, non-empty template formatted; a missing key or an empty template raises ValueError "not found" naming the key and the language text; any other text raises "Unsupported language: " followed by that text |
| PromptTable.TablesAreIndependent | src/data_science_agent/language/prompt.py:13-20 | a lookup for "de" does not depend on the EN table, nor one for "en" on the DE table, whether the language is the member or the plain string |
| PromptTable.OkMeansNonEmptyTemplate | src/data_science_agent/language/prompt.py:13-23 | a lookup succeeds only when the language text is "de" or "en" and that table holds the key with a non-empty template |
| PromptTable.PlainTextIsTheMember | src/data_science_agent/language/prompt.py:13-17 | `Language` is a string enumeration, so the plain string "de" or "en" gives exactly the result of its member |
| Messages.AsDict | src/data_science_agent/utils/llm_metadata.py:39-41 | `x or {}`: a falsy value is the empty dict, a dict is itself, and a truthy non-dict is an error |
| LlmMetadata.OptionalInt | src/data_science_agent/utils/llm_metadata.py:13-15 | an `Optional[int]` field accepts None and integers, reads booleans as 1 and 0, accepts a float exactly when it has no fractional part, and rejects dicts and text, numeric text included (see "## Left out") |
| LlmMetadata.OptionalFloat | src/data_science_agent/utils/llm_metadata.py:20-23 | an `Optional[float]` field accepts None and floats, widens integers, reads booleans as 1.0 and 0.0, and rejects dicts and text, numeric text included (see "## Left out") |
| LlmMetadata.FromAiMessage | src/data_science_agent/utils/llm_metadata.py:36-58 | the record carries `calling_method_name` and the message itself; a truthy non-dict `response_metadata` fails |
| LlmMetadata.MissingMetadataGivesDefaults | src/data_science_agent/utils/llm_metadata.py:39-48 | a missing or falsy `response_metadata` gives all-None tokens and costs and model name "Unknown" |
| LlmMetadata.FalsyNestedDictsAreEmpty | src/data_science_agent/utils/llm_metadata.py:40-41 | a missing or falsy `token_usage` gives all-None tokens and costs |
| LlmMetadata.ModelNameDefault | src/data_science_agent/utils/llm_metadata.py:42 | `model_name` is copied when present and is "Unknown" when absent |
| LlmMetadata.FieldsComeFromTheirDicts | src/data_science_agent/utils/llm_metadata.py:44-55 | the three token counts come from `token_usage`, `total_cost` from its `cost` key and the upstream costs from the nested `cost_details`, each None when missing; a missing or falsy `cost_details` gives None for all three upstream costs |
| LlmMetadata.TokenUsageIsValidatedFirst | src/data_science_agent/utils/llm_metadata.py:41-52 | an invalid `total_tokens` raises the `TokenUsage` validation error, even when `cost_details` is a truthy non-dict whose `.get` would fail later |
| LlmMetadata.TotalCostIgnoresCostDetails | src/data_science_agent/utils/llm_metadata.py:51 | without a `cost` key the total cost is None, whatever `cost_details` holds |
| State.AgentState.constructor | src/data_science_agent/test.py:19-27 | an invocation state that carries the keys of test.py:19-27 and also `messages=[]`, `llm_metadata=[]` and an `output_path` (see "## Left out"): an empty conversation, no metadata, no script path or code, empty test outputs, no visualizations, 0 regeneration attempts and refactoring off |
| State.MetadataOfLast | src/data_science_agent/pipeline/utils.py:24 | `messages[-1]` on an empty conversation raises IndexError; otherwise the record describes the last message and carries the caller's name |
| CodeTesting.Command | src/data_science_agent/pipeline/code_testing.py:15-18 | the command is `[Rscript, path]` for R and `[executable, path]` for every other language |
| CodeTesting.Stored | src/data_science_agent/pipeline/code_testing.py:24-31 | a non-empty capture is stored verbatim and an empty one becomes the sentinel |
| CodeTesting.StoredOutputs | src/data_science_agent/pipeline/code_testing.py:24-31 | stdout is kept or becomes "No output from generated code.", stderr is kept or becomes "No errors from generated code.", and both stored texts are non-empty |
| CodeTesting.ExitStatusIsIgnored | src/data_science_agent/pipeline/code_testing.py:20-31 | the exit status never affects what is stored |
| CodeTesting.TestGeneratedCode | src/data_science_agent/pipeline/code_testing.py:11-35 | a missing `script_path` raises KeyError and changes nothing; otherwise only the two output fields change, to the stored outputs of running the chosen command |
| TestingEvaluation.DecideRouteAsWritten | src/data_science_agent/pipeline/llm_operations/testing_evaluation.py:90-109 | the code as written: "regenerate_code" exactly when an output is non-empty, the verdict is true and attempts < max; every other case is "end" when refactoring and "judge" otherwise |
| TestingEvaluation.DecideRoute | src/data_science_agent/pipeline/llm_operations/testing_evaluation.py:90-109 | the corrected route: the same regenerate condition, so never at attempts == max; every other case is "end" when refactoring and "evaluate" otherwise; always one of the three keys the graph has |
| TestingEvaluation.CorrectionOnlyRenamesJudge | src/data_science_agent/pipeline/llm_operations/testing_evaluation.py:93-109 | the corrected route differs from the written one only by answering "evaluate" for "judge" |
| TestingEvaluation.RouteAfterTest | src/data_science_agent/pipeline/llm_operations/testing_evaluation.py:65-109 | after a test run the no-output branch is unreachable: the route depends only on the verdict, attempts < max and the refactoring flag |
| TestingEvaluation.DecideRegenerateCode | src/data_science_agent/pipeline/llm_operations/testing_evaluation.py:62-109 | with both outputs empty the model is not asked and nothing changes; otherwise the model sees one message with the outputs, exactly one metadata record is appended, nothing else changes (attempts, flag and code included), and the route is the corrected one |
| PipelineUtils.ScriptName | src/data_science_agent/pipeline/utils.py:15-17 | the script is named `generated_plots.<extension>`, a plain non-empty file name |
| PipelineUtils.ScriptNamesDiffer | src/data_science_agent/pipeline/utils.py:17 | Python and R scripts have different names |
| PipelineUtils.ClearingDeletesTheScript | src/data_science_agent/utils/pipeline.py:25-31 | the script's name is not in the keep-list, so clearing deletes a deletable script |
| PipelineUtils.Generated | src/data_science_agent/pipeline/utils.py:12-25 | `script_path` is always the output path joined with the script name |
| PipelineUtils.ScriptPathIsInOutput | src/data_science_agent/pipeline/utils.py:17 | `script_path` names the script inside the output directory |
| PipelineUtils.GeneratedFailsOnlyOnDirectory | src/data_science_agent/pipeline/utils.py:18-24 | the node fails with IsADirectoryError exactly when a folder holds the script's name, or else only when the answer has no messages; a failure appends no metadata; success appends exactly one record with the caller's name |
| PipelineUtils.GeneratedRecordsTheAnswer | src/data_science_agent/pipeline/utils.py:18-24 | on success the file holds `code.code`, `code` is the structured answer and `messages` is the answer's message list |
| PipelineUtils.GeneratedTouchesNothingElse | src/data_science_agent/pipeline/utils.py:12-25 | only `script_path`, `code`, `messages` and `llm_metadata` change, and no directory entry other than the script |
| PipelineUtils.GenerateAndWriteCode | src/data_science_agent/pipeline/utils.py:12-25 | the method's outcome, new state and directory are exactly `Generated` of the old state and directory |
| CodeRegeneration.RegenerationRequest | src/data_science_agent/pipeline/llm_operations/code_regeneration.py:56-67 | the request carries the previous stdout, stderr, explanation and code, with "" for a missing code |
| CodeRegeneration.RegenerationSpendsOneAttempt | src/data_science_agent/pipeline/llm_operations/code_regeneration.py:56-77 | whatever the answer, `regeneration_attempts` grows by exactly one and the refactoring flag and language are kept, so each pass through the node spends one attempt; the agent is asked with the previous conversation plus exactly one request, and the state then holds the agent's messages, or that conversation when a folder blocks the script |
| CodeRegeneration.RegenerationClearsFirst | src/data_science_agent/pipeline/llm_operations/code_regeneration.py:70-77 | apart from the script, the directory afterwards is exactly the cleared directory |
| CodeRegeneration.LlmRegenerateCode | src/data_science_agent/pipeline/llm_operations/code_regeneration.py:54-77 | the node's outcome, new state and directory are exactly `Regenerated` of the old ones |
| RefactorCode.RefactorRestartsTheBudget | src/data_science_agent/pipeline/llm_operations/refactor_code.py:70-89 | with code present: the agent sees one request with the code and judge messages, `code` becomes the answer, attempts become 0 and `is_refactoring` true, whether or not a later step fails |
| RefactorCode.RefactorNeedsCode | src/data_science_agent/pipeline/llm_operations/refactor_code.py:73 | without code the node raises KeyError("code") and changes nothing |
| RefactorCode.RefactorWritesTheNewCode | src/data_science_agent/pipeline/llm_operations/refactor_code.py:78-93 | on success exactly one metadata record is appended, and a `script_path` inside the output directory names a file that holds the new `code.code` (see "## Left out") |
| RefactorCode.LlmRefactorPlots | src/data_science_agent/pipeline/llm_operations/refactor_code.py:62-94 | the node's outcome, new state and directory are exactly `Refactored` of the old ones |
| CodeGeneration.DecideProgrammingLanguage | src/data_science_agent/pipeline/llm_operations/code_generation.py:339-347 | PYTHON gives "python" and R gives "r"; anything not equal to either raises ValueError "Unsupported programming language." |
| CodeGeneration.LibInstructionKey | src/data_science_agent/pipeline/llm_operations/code_generation.py:270-274 | the key is the Python library instruction exactly for PYTHON and the R one exactly for R |
| CodeGeneration.Head | src/data_science_agent/pipeline/llm_operations/code_generation.py:240 | `head(n)` is a prefix of at most n rows, and exactly n when there are enough |
| CodeGeneration.Requests | src/data_science_agent/pipeline/llm_operations/code_generation.py:291-321 | the agent gets two human messages, the description and the code request with the language's template and ";" as separator |
| CodeGeneration.GenerationEffects | src/data_science_agent/pipeline/llm_operations/code_generation.py:250-301 | the directory afterwards is exactly the cleared directory, `visualizations` is set, no other field but the metadata changes, success appends exactly one record with the node's name and failure appends none |
| CodeGeneration.GenerateCode | src/data_science_agent/pipeline/llm_operations/code_generation.py:265-302 | the shared body's outcome, state and directory are exactly `GeneratedVisualizations` of the old ones |
| CodeGeneration.LlmGeneratePythonCode | src/data_science_agent/pipeline/llm_operations/code_generation.py:229-262 | the Python node is the shared body with the Python template, five head rows and its own name |
| CodeGeneration.LlmGenerateRCode | src/data_science_agent/pipeline/llm_operations/code_generation.py:305-336 | the R node is the shared body with the R template, ten head rows and its own name |
| Builder.Next | src/data_science_agent/graph/builder.py:170-216 | the two branching nodes go on exactly for the keys of their tables; every other node follows its fixed edge |
| Builder.OnlyCycleIsRegeneration | src/data_science_agent/graph/builder.py:174-215 | every edge climbs a rank except regenerate to test, so that is the only cycle |
| Builder.GraphShape | src/data_science_agent/graph/builder.py:192-215 | the test branch has exactly the keys regenerate_code, evaluate and end; both generators and regeneration lead to the test; both evaluations lead to statistics, and statistics to the end |
| Builder.LanguageBranchIsTotal | src/data_science_agent/graph/builder.py:186-191 | "python" leads to the Python generator and "r" to the R generator |
| Builder.RoutesHaveEdges | src/data_science_agent/graph/builder.py:195-203 | every route the corrected function can return is a key of the test branch, so the graph always has somewhere to go |
| Builder.JudgeHasNoEdge | src/data_science_agent/graph/builder.py:195-203 | the route as written answers "judge" for a passing first test, and "judge" is not a key of the branch |
| Builder.TotalTokens | src/data_science_agent/graph/builder.py:33 | the total is non-negative for non-negative counts and 0 when every count is missing |
| Builder.TotalTokensAppend | src/data_science_agent/graph/builder.py:33 | the total of two runs of records is the sum of their totals |
| Statistics.Tally.Denominator | src/data_science_agent/pipeline/statistics.py:42-43 | `max(1, total)` is at least 1 and at least the total |
| Statistics.CountedPrefix | src/data_science_agent/pipeline/statistics.py:25-31 | the first n visualizations all have a value for the attempt's key and the next one, if any, lacks it: n is where the `break` happens |
| Statistics.CountBuckets | src/data_science_agent/pipeline/statistics.py:33-39 | 0 counts as no visualization, 1 as exactly one and 2 or more as several, one bucket each |
| Statistics.TallyOf | src/data_science_agent/pipeline/statistics.py:25-41 | the scan stops early exactly when a visualization lacks the key, and the only error is the invalid-value ValueError |
| Statistics.TallyCountsThePrefix | src/data_science_agent/pipeline/statistics.py:22-39 | the three counts add up to the visualizations before the first one lacking the key, at most the list's length |
| Statistics.TallyCountsOneMore | src/data_science_agent/pipeline/statistics.py:33-39 | counting one more visualization adds one to the total |
| Statistics.TallyFailsOnNegative | src/data_science_agent/pipeline/statistics.py:40-41 | the count raises exactly when a counted visualization holds a negative value |
| Statistics.BlockShape | src/data_science_agent/pipeline/statistics.py:30-47 | each attempt gets the optional "already done" line and four lines; both ratios share a denominator of at least 1; exactly one never exceeds one-or-more |
| Statistics.BlocksLength | src/data_science_agent/pipeline/statistics.py:20-47 | the report has four or five lines per attempt |
| Statistics.EveryAttemptHasABlock | src/data_science_agent/pipeline/statistics.py:20-47 | every attempt index below the maximum gets its header, even after an early stop |
| Statistics.ScanStep | src/data_science_agent/pipeline/statistics.py:25-39 | scanning one more visualization with a value moves it from the rest into the counters |
| Statistics.ErrorEndsTheReport | src/data_science_agent/pipeline/statistics.py:41 | once an attempt raises, the whole report raises with that error |
| Statistics.CountAttempt | src/data_science_agent/pipeline/statistics.py:21-41 | the inner loop computes exactly `TallyOf` for the attempt's key |
| Statistics.VerStatistics | src/data_science_agent/pipeline/statistics.py:10-49 | the outer loop builds exactly `VerReport`: title lines, one block per attempt, a closing rule, or the first error |
| MetadataAnalysis.ManualAddIsNeeded | src/data_science_agent/pipeline/metadata_analysis.py:110-113 | `DC.format` is a bound method, the namespace set lacks the Dublin Core format URI, and the manual add is what puts it in |
| MetadataAnalysis.CatalogTermsLackDcFormat | src/data_science_agent/pipeline/metadata_analysis.py:25-60 | no RDF, RDFS, Dublin Core, DCAT or DCAT-AP.de term is the Dublin Core format URI |
| MetadataAnalysis.AgentTermsLackDcFormat | src/data_science_agent/pipeline/metadata_analysis.py:25-110 | no FOAF, vCard, ADMS or SPDX term is that URI |
| MetadataAnalysis.OtherTermsLackDcFormat | src/data_science_agent/pipeline/metadata_analysis.py:25-110 | no OWL, SKOS, LOCN or DATAEU term is that URI |
| MetadataAnalysis.HostsDiffer | src/data_science_agent/pipeline/metadata_analysis.py:11-23 | every namespace URI but Dublin Core's differs from the Dublin Core format URI in the first character of its host |
| MetadataAnalysis.NoAttributeIsDcFormat | src/data_science_agent/pipeline/metadata_analysis.py:110 | no attribute of a namespace on another host stringifies to that URI |
| MetadataAnalysis.DcAttributesAreNotDcFormat | src/data_science_agent/pipeline/metadata_analysis.py:32 | no Dublin Core attribute stringifies to that URI, `format` included |
| MetadataAnalysis.ToMetadata | src/data_science_agent/pipeline/metadata_analysis.py:128 | a record's subject, predicate and object are the triple's components as text |
| MetadataAnalysis.Filtered | src/data_science_agent/pipeline/metadata_analysis.py:126-128 | the output is no longer than the input |
| MetadataAnalysis.FilterTriples | src/data_science_agent/pipeline/metadata_analysis.py:125-130 | the loop computes exactly `Filtered` |
| MetadataAnalysis.AnalyseMetadata | src/data_science_agent/pipeline/metadata_analysis.py:117-130 | the node filters with `excluded_predicates_uris` |
| MetadataAnalysis.FilteredAppend | src/data_science_agent/pipeline/metadata_analysis.py:125-130 | filtering distributes over concatenation, so kept triples keep their order |
| MetadataAnalysis.FilteredMembers | src/data_science_agent/pipeline/metadata_analysis.py:126-128 | a record is in the output exactly when some input triple with a non-excluded predicate stringifies to it |
| OutputDir.Cleared | src/data_science_agent/utils/pipeline.py:23-33 | nothing is added or altered; kept names and folders survive; any other entry disappears exactly when it is a regular file outside the keep-list that the system lets go |
| OutputDir.DeletionFailures | src/data_science_agent/utils/pipeline.py:29-33 | the failures reported are exactly the deletable files the system refused |
| OutputDir.Directory.ClearOutputDir | src/data_science_agent/utils/pipeline.py:23-33 | the loop leaves `Cleared` of the old listing, reports `DeletionFailures` and carries on past a failure |
| OutputDir.ArchiveNameIsNotArchivable | src/data_science_agent/utils/pipeline.py:38-40 | the archive folder's name never passes the image test |
| OutputDir.Archived | src/data_science_agent/utils/pipeline.py:35-41 | originals are untouched; without an image nothing changes; otherwise exactly one archive folder is added |
| OutputDir.CopiesAreTheImages | src/data_science_agent/utils/pipeline.py:37-41 | the copies are exactly the `.png` files other than `graph.png`, with their contents |
| OutputDir.ArchivedPartStep | src/data_science_agent/utils/pipeline.py:38-41 | copying one more image adds it to the archive folder |
| OutputDir.ArchivedPartSkip | src/data_science_agent/utils/pipeline.py:38 | a name that is not an image changes nothing |
| OutputDir.ArchivedPartKeepsOthers | src/data_science_agent/utils/pipeline.py:35-41 | archiving changes no entry but the archive folder |
| OutputDir.Directory.ArchiveImages | src/data_science_agent/utils/pipeline.py:35-41 | the loop succeeds exactly when no regular file blocks the archive folder, and then leaves `Archived` of the old listing; originals are kept either way |
| OutputDir.JoinParts | src/data_science_agent/pipeline/utils.py:17 | `os.path.join` starts with the directory, ends with the name and adds at most one `/` between them |
| OutputDir.NameIn | src/data_science_agent/pipeline/llm_operations/refactor_code.py:92 | a path found inside the directory is that directory joined with a plain file name |
| OutputDir.NameInJoin | src/data_science_agent/pipeline/utils.py:17 | joining a plain name onto the directory is found again as that name |
| OutputDir.Directory.WriteFile | src/data_science_agent/pipeline/utils.py:18-22 | `open(..., "w")` on a folder raises IsADirectoryError and changes nothing; otherwise the file holds exactly the content and no other entry changes |
| ControlLoop.Loop | src/data_science_agent/graph/builder.py:195-211 | the cycle leaves through "evaluate" or, when refactoring, "end", never through "regenerate_code"; as written the graph never reaches it, because the first test already raises (see FirstPass.FirstTestAsWritten) |
| FirstPass.FirstTestAsWritten | src/data_science_agent/graph/builder.py:184-194 | from a state without `script_path`, the language's generate node followed by the test: a generate step that succeeds is followed by `KeyError('script_path')`, one that fails stops with its own error |
| FirstPass.FirstTestCorrected | src/data_science_agent/pipeline/utils.py:12-25 | with a generate step that records the script it writes, a successful generate step is followed by a passing test that ran `<output>/generated_plots.<ext>` with the language's interpreter and stored both outputs |
| ControlLoop.LoopStep | src/data_science_agent/pipeline/llm_operations/testing_evaluation.py:90-92 | one pass regenerates exactly when the model says yes within the budget, whatever the script printed, and then continues with one more attempt spent |
| ControlLoop.LoopIsBounded | src/data_science_agent/pipeline/llm_operations/code_regeneration.py:72 | from attempts a ≤ max at most max − a regenerations happen, and none once a ≥ max |
| ControlLoop.LoopExhaustsTheBudget | src/data_science_agent/pipeline/llm_operations/testing_evaluation.py:90-92 | a model that always asks for regeneration gets exactly max − a |
| ControlLoop.LoopFollowsTheVerdicts | src/data_science_agent/pipeline/llm_operations/testing_evaluation.py:90-104 | each regeneration had a yes within the budget, and the cycle stops at the first no |
| ControlLoop.LoopIgnoresTheOutputs | src/data_science_agent/pipeline/code_testing.py:24-31 | what the script prints never changes how the cycle ends |
| ControlLoop.LoopLeavesByAnEdge | src/data_science_agent/graph/builder.py:195-203 | the exit route is a key of the test branch and leads away from regeneration |
| ControlLoop.LegacyLoop | agent.py:404-413 | the older cycle always leaves through "end" |
| ControlLoop.LegacyLoopIsBounded | agent.py:318-321 | the older cycle regenerates at most 3 − a times, so at most three times from a fresh state |
| ControlLoop.LegacyLoopExhaustsTheBudget | agent.py:318-321 | a model that always asks gets exactly 3 − a regenerations |
| ControlLoop.LegacyLoopLeavesByAnEdge | agent.py:404-411 | the older exit route leads to END |
| LegacyAgent.DetermineLanguage | agent.py:25-35 | the same locale rule as the current configuration: DE unless the lower-cased value starts with "en" |
| LegacyAgent.DecideProgrammingLanguage | agent.py:106-114 | the older decision accepts exactly the values the current one accepts and gives the same key; it differs only in its error, ValueError "Unsupported programming language" without the period |
| LegacyAgent.ScriptPathIsInOutput | agent.py:358-359 | `script_path` is "./output/generate_plots." plus the extension, the script inside `./output/` |
| LegacyAgent.ClearingRemovesThePythonScript | agent.py:201-210 | the older keep-list keeps `generate_plots.r` but not `generate_plots.py`, which clearing deletes |
| LegacyAgent.DecideRoute | agent.py:293-326 | "regenerate_code" exactly when an output is non-empty, the verdict is true and attempts < 3; "end" otherwise |
| LegacyAgent.LegacyState.constructor | agent.py:423-430 | the older graph starts with an empty conversation, no script path or code and 0 regeneration attempts, writing under `./output/` |
| LegacyAgent.TestGeneratedCode | agent.py:263-287 | the same command choice and sentinels as the current node, and only the two output fields change |
| LegacyAgent.DecideRegenerateCode | agent.py:290-326 | with both outputs empty the route is "end" whatever the model would say; otherwise the model sees the system prompt and one message with the outputs, and the route is `DecideRoute` of its verdict; the state is not changed |
| LegacyAgent.GeneratedWritesTheScript | agent.py:355-367 | `messages` and `script_path` are always set; the node fails exactly on a folder in the script's place; on success `code` and the file hold the answer; nothing else changes |
| LegacyAgent.GenerateAndWriteCode | agent.py:355-367 | the method's effect is exactly `Generated` of the old state and directory |
| LegacyAgent.RegenerationSpendsOneAttempt | agent.py:329-352 | attempts grow by exactly one, the language is kept, and the new conversation is the agent's answer to the old conversation followed by exactly one request |
| LegacyAgent.LlmRegenerateCode | agent.py:329-352 | the node's effect is exactly `Regenerated` of the old state and directory |
| LegacyAgent.LlmGenerateCode | agent.py:213-260 | the generate nodes append one request to the conversation, clear `./output/` and then write the answer as `generate_and_write_code` does |
| LegacyAgent.LanguageRoutesHaveEdges | agent.py:395-400 | "python" leads to the Python generator and "r" to the R generator |
| LegacyAgent.RoutesHaveEdges | agent.py:404-413 | every route of the older snapshot has an edge, and regeneration leads back to the test |

## Left out

- Language model calls (`create_agent`, `invoke`, `get_llm_model`) are function parameters. The prompt texts and `str.format` are not modelled: a prompt is a datatype holding its template key and arguments.
- Prompt lookups inside the nodes are taken as succeeding. `PromptTable.GetPrompt` models their failures on its own.
- `subprocess.run`, `os.listdir`, `os.remove`, `os.makedirs`, `shutil.copy` and file writes act on an in-memory map from names to files and folders. The listing order is not modelled. Deletion failures are a given set of names.
- Console output (`print`, `print_color`), the duration tracking decorator and the statistics file writing are left out.
- The float ratios and the `.2%` rendering of the VER report are kept as numerator and denominator.
- Strings.Lower: only ASCII letters are lower-cased, unlike Python's Unicode `str.lower`.
- Strings.ParseInt: surrounding whitespace and digit-group underscores, which Python's `int` accepts, are not modelled.
- LlmMetadata.OptionalInt: pydantic's lax coercion of numeric strings such as "12" is not modelled; a string is always rejected here. Booleans and integral floats are coerced as pydantic does.
- LlmMetadata.OptionalFloat: pydantic's lax coercion of numeric strings such as "0.5" is not modelled; a string is always rejected here. Integers and booleans are widened as pydantic does.
- The repr of a bound method leaves out its memory address.
- Loading data, analysing data and loading metadata (pandas and rdflib parsing) are left out, as are the summary, goal, judge and evaluation nodes. So are the score and duration statistics and the inter-rater agreement.
- The per-visualization code fields of the visualization wrapper are not modelled. The loop works on the single script in `script_path`.
- The current generate nodes set `visualizations` but neither `code` nor `script_path`. The node methods keep that as written, so the first test after them raises `KeyError` (see "## Findings").
- TestingEvaluation.DecideRegenerateCode: returns the corrected route "evaluate" where src/data_science_agent/pipeline/llm_operations/testing_evaluation.py:96, 102 and 107 return "judge"; the route as written is `TestingEvaluation.DecideRouteAsWritten` (see "## Findings").
- The refactor node is not wired into the current graph (its edges are commented out). It is modelled as a node, and the loop lemmas take the flag as an input.
- Reading `code_test_stdout`, `code_test_stderr`, `is_refactoring`, `regeneration_attempts`, `messages`, `llm_metadata` and `output_path` from the state is taken as succeeding. Each is a field of the state class. The invocation at src/data_science_agent/test.py:19-27 passes none of the last three (nor `durations`), and no node writes them before they are read. So the source as written raises KeyError at the first `@track_duration` node (src/data_science_agent/pipeline/decorator/duration_tracking.py:24) before any modelled node runs. The model's initial state supplies `messages=[]`, `llm_metadata=[]` and an output directory.
- RefactorCode.LlmRefactorPlots: a `script_path` outside the output directory is neither written nor checked; the node then passes with the directory unchanged. Every path the program records lies inside that directory (`PipelineUtils.ScriptPathIsInOutput`, `OutputDir.NameInJoin`), so only a hand-made state can carry another one.
- ControlLoop.Loop: takes every node in the cycle to succeed. A pass can also end with an exception that the node methods model one by one: the metadata ValidationError in the decide node, IndexError on an answer without messages, and IsADirectoryError in the regeneration write.
- The dynamic DTO loading and the TypedDict declaration of the state are replaced by Dafny datatypes and the state classes.
- The older snapshot's summary, metadata and message-loading nodes and its graph compilation and rendering are left out. Its branch tables are modelled.

## Findings

| source | as written | input that shows it | evidently intended | confidence | as-written member | corrected member |
|---|---|---|---|---|---|---|
| src/data_science_agent/pipeline/llm_operations/testing_evaluation.py:93-109 | every non-regenerating case outside refactoring returns "judge", but the conditional edges at src/data_science_agent/graph/builder.py:198-202 have only the keys regenerate_code, evaluate and end, so that route has no edge | stdout "plot saved", stderr the no-errors sentinel, verdict false, 0 attempts of 3, not refactoring | return "evaluate", which leads to the first evaluation node | not executed | TestingEvaluation.DecideRouteAsWritten (Builder.JudgeHasNoEdge) | TestingEvaluation.DecideRoute (Builder.RoutesHaveEdges) |
| src/data_science_agent/pipeline/llm_operations/code_generation.py:250-262 | `llm_generate_python_code` and `llm_generate_r_code` (lines 325-336) set `visualizations` and `llm_metadata` but not `script_path`, which `test_generated_code` reads at src/data_science_agent/pipeline/code_testing.py:14 right after them | a state without `script_path` that carries the keys of src/data_science_agent/test.py:19-27 plus `durations=[]`, `llm_metadata=[]`, `messages=[]` and an `output_path`, and any model answer whose last message carries metadata | the generate step records the script it writes in `script_path`, as `generate_and_write_code` does at src/data_science_agent/pipeline/utils.py:17 | not executed | FirstPass.FirstTestAsWritten | FirstPass.FirstTestCorrected |

=== FILE: agent_state.dfy ===
/**
 * The agent state of `graph/agent_state.py`, a dictionary every node of the graph reads
 * and updates in place. Here it is an object whose fields the node methods assign.
 */
module State {
  import opened Wrappers
  import opened Enums
  import opened Messages
  import opened LlmMetadata
  import opened OutputDir

  /** The `Code` response schema: an explanation and the script text. */
  datatype Code = Code(explanation: string, code: string, stdOut: string, stdErr: string)

  /** The `Regeneration` response schema: the model's verdict on the test output. */
  datatype Regeneration = Regeneration(shouldBeRegenerated: bool)

  /** One visualization of the `VisualizationContainer` response schema. */
  datatype Visualization = Visualization(goalQuestion: string, code: Code)

  datatype VisualizationContainer = VisualizationContainer(visualizations: seq<Visualization>)

  /** The `Summary` response schema, with its column list rendered as text. */
  datatype Summary = Summary(summary: string, columns: string)

  /**
   * The values of the state's fields at one moment. A node's contract gives the new
   * state as an update of the old one, so every field it does not name is unchanged.
   */
  datatype Fields = Fields(
    messages: seq<Message>,
    summary: Option<Summary>,
    goals: Option<string>,
    codeTestStdout: string,
    codeTestStderr: string,
    code: Option<Code>,
    scriptPath: Option<string>,
    regenerationAttempts: int,
    programmingLanguage: ProgrammingLanguage,
    isRefactoring: bool,
    llmMetadata: seq<LLMMetadata>,
    visualizations: Option<VisualizationContainer>,
    judgeMessages: Option<string>)

  /**
   * `AgentState`. `output` is the directory at `output_path`. A key the dictionary may lack
   * is an `Option` field, `None` while it is absent: `code` and `script_path` are set only
   * by the nodes that write a script, `summary`, `goals` and `judge_messages` by nodes
   * outside this model.
   */
  class AgentState {
    const output: Directory
    const datasetPath: string
    /** The rows of the loaded data frame, as `head()` would render them. */
    const datasetRows: seq<string>
    var messages: seq<Message>
    var summary: Option<Summary>
    var goals: Option<string>
    var codeTestStdout: string
    var codeTestStderr: string
    var code: Option<Code>
    var scriptPath: Option<string>
    var regenerationAttempts: int
    var programmingLanguage: ProgrammingLanguage
    var isRefactoring: bool
    var llmMetadata: seq<LLMMetadata>
    var visualizations: Option<VisualizationContainer>
    var judgeMessages: Option<string>

    function Snapshot(): Fields
      reads this
    {
      Fields(messages, summary, goals, codeTestStdout, codeTestStderr, code, scriptPath,
             regenerationAttempts, programmingLanguage, isRefactoring, llmMetadata,
             visualizations, judgeMessages)
    }

    /**
     * An invocation state: the keys the graph is invoked with, plus an empty conversation,
     * no metadata records and the output directory, which the invocation itself does not pass.
     */
    constructor (output: Directory, datasetPath: string, datasetRows: seq<string>, programmingLanguage: ProgrammingLanguage)
      ensures this.output == output && this.datasetPath == datasetPath && this.datasetRows == datasetRows
      ensures Snapshot() == Fields([], None, None, "", "", None, None, 0, programmingLanguage, false, [], None, None)
    {
      this.output := output;
      this.datasetPath := datasetPath;
      this.datasetRows := datasetRows;
      messages := [];
      summary := None;
      goals := None;
      codeTestStdout := "";
      codeTestStderr := "";
      code := None;
      scriptPath := None;
      regenerationAttempts := 0;
      this.programmingLanguage := programmingLanguage;
      isRefactoring := false;
      llmMetadata := [];
      visualizations := None;
      judgeMessages := None;
    }
  }

  /**
   * `LLMMetadata.from_ai_message(llm_response["messages"][-1], name)`: the metadata of the
   * last message of a response; an empty message list raises `IndexError`.
   */
  function MetadataOfLast(messages: seq<Message>, callingMethodName: string): (r: Result<LLMMetadata>)
    ensures messages == [] ==> r == Err(IndexError)
    ensures r.Ok? ==> r.value.methodName == callingMethodName && r.value.message == messages[|messages| - 1]
  {
    if messages == [] then Err(IndexError) else FromAiMessage(messages[|messages| - 1], callingMethodName)
  }
}

=== FILE: builder.dfy ===
/**
 * `build_graph` of `graph/builder.py` as a constant transition table, and the token total
 * of its statistics node.
 */
module Builder {
  import opened Wrappers
  import opened Enums
  import opened LlmMetadata
  import TestingEvaluation
  import CodeGeneration

  /** The graph's nodes; `Start` and `Finish` are LangGraph's `START` and `END`. */
  datatype Node =
    | Start
    | LoadData
    | AnalyseData
    | AnalyseMetadata
    | GenerateSummary
    | GenerateGoals
    | GeneratePythonCode
    | GenerateRCode
    | TestGeneratedCode
    | RegenerateCode
    | EvaluateVisualizationsFirst
    | EvaluateVisualizationsSecond
    | Statistics
    | Finish

  /** The plain edges (`add_edge`). */
  function Edge(n: Node): Option<Node> {
    match n
    case Start => Some(LoadData)
    case LoadData => Some(AnalyseData)
    case AnalyseData => Some(AnalyseMetadata)
    case AnalyseMetadata => Some(GenerateSummary)
    case GenerateSummary => Some(GenerateGoals)
    case GeneratePythonCode => Some(TestGeneratedCode)
    case GenerateRCode => Some(TestGeneratedCode)
    case EvaluateVisualizationsFirst => Some(Statistics)
    case RegenerateCode => Some(TestGeneratedCode)
    case EvaluateVisualizationsSecond => Some(Statistics)
    case Statistics => Some(Finish)
    case _ => None
  }

  /** The path map of the conditional edge out of `LLM generate_goals`. */
  const LanguageBranch: map<string, Node> := map["python" := GeneratePythonCode, "r" := GenerateRCode]

  /** The path map of the conditional edge out of `test_generated_code`. */
  const TestBranch: map<string, Node> :=
    map["regenerate_code" := RegenerateCode, "evaluate" := EvaluateVisualizationsFirst,
        "end" := EvaluateVisualizationsSecond]

  /** The node a step leads to, given the key a routing function returned where there is one. */
  function Next(n: Node, route: string): (r: Option<Node>)
    ensures n == GenerateGoals ==> (r.Some? <==> route in LanguageBranch)
    ensures n == TestGeneratedCode ==> (r.Some? <==> route in TestBranch)
    ensures n != GenerateGoals && n != TestGeneratedCode ==> r == Edge(n)
  {
    if n == GenerateGoals then (if route in LanguageBranch then Some(LanguageBranch[route]) else None)
    else if n == TestGeneratedCode then (if route in TestBranch then Some(TestBranch[route]) else None)
    else Edge(n)
  }

  /** Every node a step can reach from `n`. */
  function Successors(n: Node): set<Node> {
    (if Edge(n).Some? then {Edge(n).value} else {})
    + (if n == GenerateGoals then LanguageBranch.Values else {})
    + (if n == TestGeneratedCode then TestBranch.Values else {})
  }

  /** A position in the pipeline that every edge except one moves forward. */
  function Rank(n: Node): nat {
    match n
    case Start => 0
    case LoadData => 1
    case AnalyseData => 2
    case AnalyseMetadata => 3
    case GenerateSummary => 4
    case GenerateGoals => 5
    case GeneratePythonCode => 6
    case GenerateRCode => 6
    case TestGeneratedCode => 7
    case RegenerateCode => 8
    case EvaluateVisualizationsFirst => 8
    case EvaluateVisualizationsSecond => 8
    case Statistics => 9
    case Finish => 10
  }

  /** The only edge that goes back is `LLM regenerate_code` to `test_generated_code`: the only cycle. */
  lemma OnlyCycleIsRegeneration(n: Node, m: Node)
    requires m in Successors(n)
    ensures Rank(m) > Rank(n) || (n == RegenerateCode && m == TestGeneratedCode)
  {
  }

  /** The shape of the loop and of its exits. */
  lemma GraphShape()
    ensures TestBranch.Keys == {"regenerate_code", "evaluate", "end"}
    ensures Successors(RegenerateCode) == {TestGeneratedCode}
    ensures Successors(GeneratePythonCode) == {TestGeneratedCode} && Successors(GenerateRCode) == {TestGeneratedCode}
    ensures Successors(EvaluateVisualizationsFirst) == {Statistics}
    ensures Successors(EvaluateVisualizationsSecond) == {Statistics}
    ensures Successors(Statistics) == {Finish} && Successors(Finish) == {}
    ensures Successors(TestGeneratedCode) == {RegenerateCode, EvaluateVisualizationsFirst, EvaluateVisualizationsSecond}
  {
  }

  /** The language branch sends each supported language to its own generator. */
  lemma LanguageBranchIsTotal(language: ProgrammingLanguage)
    ensures var key := CodeGeneration.DecideProgrammingLanguage(Member(language));
            && key.Ok? && key.value in LanguageBranch
            && LanguageBranch[key.value] == (if language == Python then GeneratePythonCode else GenerateRCode)
  {
  }

  /** Every route the corrected decision returns has an edge in the table. */
  lemma RoutesHaveEdges(stdout: string, stderr: string, verdict: bool, attempts: int, max: int, isRefactoring: bool)
    ensures TestingEvaluation.DecideRoute(stdout, stderr, verdict, attempts, max, isRefactoring) in TestBranch
  {
  }

  /**
   * The decision as written answers `"judge"` after a working first attempt, and the
   * table has no such key, so the run stops with an error instead of being evaluated.
   */
  lemma JudgeHasNoEdge()
    ensures TestingEvaluation.DecideRouteAsWritten("plot saved", "No errors from generated code.", false, 0, 3, false)
              == TestingEvaluation.Judge
    ensures TestingEvaluation.Judge !in TestBranch
  {
  }

  /** `m.token_usage.total_tokens or 0` */
  function TokensOf(m: LLMMetadata): int {
    if m.tokenUsage.totalTokens.Some? then m.tokenUsage.totalTokens.value else 0
  }

  /** The token total of the statistics report, a missing count counting as 0. */
  function TotalTokens(metadata: seq<LLMMetadata>): (total: int)
    ensures (forall i :: 0 <= i < |metadata| ==> TokensOf(metadata[i]) >= 0) ==> total >= 0
    ensures (forall i :: 0 <= i < |metadata| ==> metadata[i].tokenUsage.totalTokens.None?) ==> total == 0
  {
    if metadata == [] then 0 else TotalTokens(metadata[..|metadata| - 1]) + TokensOf(metadata[|metadata| - 1])
  }

  /** The total of a run is the totals of its parts added up; each node's entry adds its own count. */
  lemma {:induction false} TotalTokensAppend(first: seq<LLMMetadata>, second: seq<LLMMetadata>)
    ensures TotalTokens(first + second) == TotalTokens(first) + TotalTokens(second)
    decreases |second|
  {
    if second == [] {
      assert first + second == first;
    } else {
      var init := second[..|second| - 1];
      assert (first + second)[..|first + second| - 1] == first + init;
      TotalTokensAppend(first, init);
    }
  }
}

=== FILE: code_generation.dfy ===
/**
 * The first generation of the plotting script in `pipeline/llm_operations/code_generation.py`:
 * the language branch, the library-instruction choice, and the two generate nodes.
 */
module CodeGeneration {
  import opened Wrappers
  import opened Enums
  import opened Messages
  import opened OutputDir
  import opened State
  import opened PipelineUtils

  /**
   * `decide_programming_language`: the branch key of the language edge. The enumeration is
   * a string enumeration, so a plain string equal to a member's value compares equal to it.
   */
  function DecideProgrammingLanguage(language: Tagged<ProgrammingLanguage>): (r: Result<string>)
    ensures language == Member(Python) ==> r == Ok("python")
    ensures language == Member(R) ==> r == Ok("r")
    ensures r.Ok? <==> language.Member? || language.text in {Python.Value(), R.Value()}
    ensures r.Err? ==> r == Err(ValueError("Unsupported programming language."))
  {
    var value := if language.Member? then language.member.Value() else language.text;
    if value == Python.Value() then Ok("python")
    else if value == R.Value() then Ok("r")
    else Err(ValueError("Unsupported programming language."))
  }

  const PythonLibInstructionKey: string := "generate_code_python_lib_instruction"
  const RLibInstructionKey: string := "generate_code_r_lib_instruction"

  /** The prompt key of the library instructions in `_get_generate_code_agent`. */
  function LibInstructionKey(language: ProgrammingLanguage): (key: string)
    ensures key == PythonLibInstructionKey <==> language == Python
    ensures key == RLibInstructionKey <==> language == R
  {
    assert PythonLibInstructionKey[14] != RLibInstructionKey[14];
    if language.Python? then PythonLibInstructionKey else RLibInstructionKey
  }

  /** The first `n` rows of the data frame (`head(n)`). */
  function Head(rows: seq<string>, n: nat): (r: seq<string>)
    ensures |r| <= n && r <= rows
    ensures |rows| >= n ==> |r| == n
  {
    if |rows| <= n then rows else rows[..n]
  }

  /** One of the two generators: its prompt key, how many rows it shows, and its name. */
  datatype Generator = Generator(templateKey: string, headRows: nat, methodName: string)

  const PythonGenerator: Generator := Generator("generate_python_code", 5, "llm_generate_python_code")
  const RGenerator: Generator := Generator("generate_r_code", 10, "llm_generate_r_code")

  function SystemPrompt(language: ProgrammingLanguage): Content {
    GenerateCodeSystemPrompt(language.Value(), LibInstructionKey(language))
  }

  function DescriptionText(summary: Option<Summary>, goals: Option<string>): Content {
    GenerateCodeDescriptionPrompt(if summary.Some? then summary.value.summary else "",
                                  if summary.Some? then summary.value.columns else "",
                                  if goals.Some? then goals.value else "")
  }

  /** The two user messages sent to the code agent. */
  function Requests(fields: Fields, generator: Generator, datasetPath: string, datasetRows: seq<string>,
                    outputPath: string): (messages: seq<Message>)
    ensures |messages| == 2 && messages[0].role == Human && messages[1].role == Human
    ensures messages[1].content.GenerateCodePrompt? && messages[1].content.datasetSeparator == ";"
    ensures messages[1].content.templateKey == generator.templateKey
  {
    [HumanMessage(DescriptionText(fields.summary, fields.goals)),
     HumanMessage(GenerateCodePrompt(generator.templateKey, datasetPath, ";",
                                     Head(datasetRows, generator.headRows), outputPath))]
  }

  /**
   * The effect of a generate node: the output directory is cleared, the agent (built with
   * the system prompt for the state's language) answers the two requests, `visualizations`
   * becomes its answer and its metadata is appended. No other field changes: in particular
   * neither `code`, `script_path` nor `messages` is written.
   */
  function GeneratedVisualizations(before: Fields, entries: map<string, Entry>, undeletable: set<string>,
                                   generator: Generator, datasetPath: string, datasetRows: seq<string>,
                                   outputPath: string,
                                   agent: (Content, seq<Message>) -> AgentResponse<VisualizationContainer>)
    : (e: Effect)
  {
    var cleared := Cleared(entries, FilesToKeep, undeletable);
    var response := agent(SystemPrompt(before.programmingLanguage),
                          Requests(before, generator, datasetPath, datasetRows, outputPath));
    var withAnswer := before.(visualizations := Some(response.structured));
    var metadata := MetadataOfLast(response.messages, generator.methodName);
    if metadata.Err? then Effect(Fail(metadata.error), withAnswer, cleared)
    else Effect(Pass, withAnswer.(llmMetadata := before.llmMetadata + [metadata.value]), cleared)
  }

  /**
   * After a generate node the directory is exactly the cleared one, only `visualizations`
   * and `llm_metadata` may differ, and success appends exactly one entry with the node's name.
   */
  lemma GenerationEffects(before: Fields, entries: map<string, Entry>, undeletable: set<string>,
                          generator: Generator, datasetPath: string, datasetRows: seq<string>, outputPath: string,
                          agent: (Content, seq<Message>) -> AgentResponse<VisualizationContainer>)
    ensures var e := GeneratedVisualizations(before, entries, undeletable, generator, datasetPath, datasetRows,
                                             outputPath, agent);
            && e.entries == Cleared(entries, FilesToKeep, undeletable)
            && e.fields.(visualizations := before.visualizations, llmMetadata := before.llmMetadata) == before
            && e.fields.visualizations.Some?
            && (e.outcome.Pass? ==>
                  && |e.fields.llmMetadata| == |before.llmMetadata| + 1
                  && e.fields.llmMetadata[..|before.llmMetadata|] == before.llmMetadata
                  && e.fields.llmMetadata[|before.llmMetadata|].methodName == generator.methodName)
            && (e.outcome.Fail? ==> e.fields.llmMetadata == before.llmMetadata)
  {
  }

  /** The shared body of the two generate nodes. */
  method GenerateCode(state: AgentState, generator: Generator, undeletable: set<string>,
                      agent: (Content, seq<Message>) -> AgentResponse<VisualizationContainer>) returns (r: Outcome)
    modifies state, state.output
    ensures Effect(r, state.Snapshot(), state.output.entries)
              == GeneratedVisualizations(old(state.Snapshot()), old(state.output.entries), undeletable, generator,
                                         state.datasetPath, state.datasetRows, state.output.path, agent)
  {
    var systemPrompt := SystemPrompt(state.programmingLanguage);
    var description := HumanMessage(DescriptionText(state.summary, state.goals));
    var _ := state.output.ClearOutputDir(FilesToKeep, undeletable);
    var request := HumanMessage(GenerateCodePrompt(generator.templateKey, state.datasetPath, ";",
                                                   Head(state.datasetRows, generator.headRows), state.output.path));
    var response := agent(systemPrompt, [description, request]);
    state.visualizations := Some(response.structured);
    var metadata := MetadataOfLast(response.messages, generator.methodName);
    if metadata.Err? {
      return Fail(metadata.error);
    }
    state.llmMetadata := state.llmMetadata + [metadata.value];
    r := Pass;
  }

  /** `llm_generate_python_code` */
  method LlmGeneratePythonCode(state: AgentState, undeletable: set<string>,
                               agent: (Content, seq<Message>) -> AgentResponse<VisualizationContainer>)
    returns (r: Outcome)
    modifies state, state.output
    ensures Effect(r, state.Snapshot(), state.output.entries)
              == GeneratedVisualizations(old(state.Snapshot()), old(state.output.entries), undeletable, PythonGenerator,
                                         state.datasetPath, state.datasetRows, state.output.path, agent)
  {
    r := GenerateCode(state, PythonGenerator, undeletable, agent);
  }

  /** `llm_generate_r_code` */
  method LlmGenerateRCode(state: AgentState, undeletable: set<string>,
                          agent: (Content, seq<Message>) -> AgentResponse<VisualizationContainer>)
    returns (r: Outcome)
    modifies state, state.output
    ensures Effect(r, state.Snapshot(), state.output.entries)
              == GeneratedVisualizations(old(state.Snapshot()), old(state.output.entries), undeletable, RGenerator,
                                         state.datasetPath, state.datasetRows, state.output.path, agent)
  {
    r := GenerateCode(state, RGenerator, undeletable, agent);
  }
}

=== FILE: code_regeneration.dfy ===
/**
 * `llm_regenerate_code` of `pipeline/llm_operations/code_regeneration.py`: ask for a fixed
 * script after a failed test, spending one regeneration attempt.
 */
module CodeRegeneration {
  import opened Wrappers
  import opened Messages
  import opened OutputDir
  import opened State
  import opened PipelineUtils

  const LlmRegenerateCodeName: string := "llm_regenerate_code"

  /**
   * The request for a fixed script, built from the last test's outputs and the previous
   * answer; `getattr(state.get("code"), ..., "")` gives empty text when there is none.
   */
  function RegenerationRequest(fields: Fields): (m: Message)
    ensures m.role == Human && m.content.RegenerateCodePrompt?
    ensures m.content.testStdout == fields.codeTestStdout && m.content.testStderr == fields.codeTestStderr
    ensures fields.code.Some? ==> m.content.codeExplanation == fields.code.value.explanation
                                  && m.content.code == fields.code.value.code
    ensures fields.code.None? ==> m.content.codeExplanation == "" && m.content.code == ""
  {
    var explanation := if fields.code.Some? then fields.code.value.explanation else "";
    var code := if fields.code.Some? then fields.code.value.code else "";
    HumanMessage(RegenerateCodePrompt(fields.codeTestStdout, fields.codeTestStderr, explanation, code))
  }

  /**
   * The node's effect: one request is appended to the conversation, the output directory is
   * cleared, the attempt counter goes up by one, and the whole conversation is sent to the
   * code agent whose answer is written as in `generate_and_write_code`.
   */
  function Regenerated(before: Fields, entries: map<string, Entry>, outputPath: string, undeletable: set<string>,
                       agent: seq<Message> -> AgentResponse<Code>): (e: Effect)
  {
    var conversation := before.messages + [RegenerationRequest(before)];
    var prepared := before.(messages := conversation, regenerationAttempts := before.regenerationAttempts + 1);
    Generated(prepared, Cleared(entries, FilesToKeep, undeletable), outputPath, agent(conversation), LlmRegenerateCodeName)
  }

  /**
   * Whatever the answer, the counter has gone up by exactly one, and the refactoring flag
   * and the programming language are unchanged. The agent is asked with the previous
   * conversation followed by exactly one request: the state then holds the agent's messages,
   * or that conversation when a directory in the script's place stops the node first.
   */
  lemma RegenerationSpendsOneAttempt(before: Fields, entries: map<string, Entry>, outputPath: string,
                                     undeletable: set<string>, agent: seq<Message> -> AgentResponse<Code>)
    ensures var e := Regenerated(before, entries, outputPath, undeletable, agent);
            var conversation := before.messages + [RegenerationRequest(before)];
            var name := ScriptName(before.programmingLanguage);
            && e.fields.regenerationAttempts == before.regenerationAttempts + 1
            && e.fields.isRefactoring == before.isRefactoring
            && e.fields.programmingLanguage == before.programmingLanguage
            && (name in entries && entries[name].Folder? ==> e.fields.messages == conversation)
            && (!(name in entries && entries[name].Folder?) ==> e.fields.messages == agent(conversation).messages)
  {
    var conversation := before.messages + [RegenerationRequest(before)];
    var prepared := before.(messages := conversation, regenerationAttempts := before.regenerationAttempts + 1);
    GeneratedTouchesNothingElse(prepared, Cleared(entries, FilesToKeep, undeletable), outputPath,
                                agent(conversation), LlmRegenerateCodeName);
  }

  /**
   * The directory is cleared before the new script is written: apart from the script
   * itself, what remains is exactly what clearing leaves.
   */
  lemma RegenerationClearsFirst(before: Fields, entries: map<string, Entry>, outputPath: string,
                                undeletable: set<string>, agent: seq<Message> -> AgentResponse<Code>)
    ensures var e := Regenerated(before, entries, outputPath, undeletable, agent);
            var cleared := Cleared(entries, FilesToKeep, undeletable);
            var name := ScriptName(before.programmingLanguage);
            && (forall other :: other != name ==> (other in e.entries <==> other in cleared))
            && (forall other :: other in cleared && other != name ==> e.entries[other] == cleared[other])
  {
    var conversation := before.messages + [RegenerationRequest(before)];
    var prepared := before.(messages := conversation, regenerationAttempts := before.regenerationAttempts + 1);
    GeneratedTouchesNothingElse(prepared, Cleared(entries, FilesToKeep, undeletable), outputPath,
                                agent(conversation), LlmRegenerateCodeName);
  }

  /** The node. `undeletable` names the files the operating system refuses to delete. */
  method LlmRegenerateCode(state: AgentState, agent: seq<Message> -> AgentResponse<Code>, undeletable: set<string>)
    returns (r: Outcome)
    modifies state, state.output
    ensures Effect(r, state.Snapshot(), state.output.entries)
              == Regenerated(old(state.Snapshot()), old(state.output.entries), state.output.path, undeletable, agent)
  {
    state.messages := state.messages + [RegenerationRequest(state.Snapshot())];
    var _ := state.output.ClearOutputDir(FilesToKeep, undeletable);
    state.regenerationAttempts := state.regenerationAttempts + 1;
    r := GenerateAndWriteCode(state, agent, state.messages, LlmRegenerateCodeName);
  }
}

=== FILE: code_testing.dfy ===
/**
 * `test_generated_code` of `pipeline/code_testing.py`: run the written script with the
 * interpreter of its language and store what it printed. The subprocess is a parameter
 * from the command line to its captured result.
 */
module CodeTesting {
  import opened Wrappers
  import opened Enums
  import opened State

  /** `subprocess.run(..., capture_output=True, text=True)`: exit status and captured text. */
  datatype ProcessResult = ProcessResult(returnCode: int, stdout: string, stderr: string)

  const NoOutput: string := "No output from generated code."
  const NoErrors: string := "No errors from generated code."

  /**
   * The command line: `Rscript` for R (an identity test against the enumeration member),
   * and the running Python interpreter `executable` for everything else.
   */
  function Command(language: Tagged<ProgrammingLanguage>, scriptPath: string, executable: string): (cmd: seq<string>)
    ensures |cmd| == 2 && cmd[1] == scriptPath
    ensures cmd[0] == "Rscript" <==> language == Member(R) || executable == "Rscript"
    ensures language != Member(R) ==> cmd[0] == executable
  {
    if language == Member(R) then ["Rscript", scriptPath] else [executable, scriptPath]
  }

  /** What is stored for one captured stream: the text itself, or the sentinel when it is empty. */
  function Stored(captured: string, sentinel: string): (r: string)
    ensures captured != "" ==> r == captured
    ensures captured == "" ==> r == sentinel
    ensures sentinel != "" ==> r != ""
  {
    if captured != "" then captured else sentinel
  }

  /** Both stored outputs of a run; whatever the process printed, neither is empty. */
  function StoredOutputs(result: ProcessResult): (r: (string, string))
    ensures r.0 != "" && r.1 != ""
    ensures result.stdout != "" ==> r.0 == result.stdout
    ensures result.stderr != "" ==> r.1 == result.stderr
    ensures result.stdout == "" ==> r.0 == NoOutput
    ensures result.stderr == "" ==> r.1 == NoErrors
  {
    (Stored(result.stdout, NoOutput), Stored(result.stderr, NoErrors))
  }

  /** The exit status plays no part in what is stored. */
  lemma ExitStatusIsIgnored(result: ProcessResult, returnCode: int)
    ensures StoredOutputs(result.(returnCode := returnCode)) == StoredOutputs(result)
  {
  }

  /**
   * The node: a state without `script_path` raises `KeyError`; otherwise the two output
   * fields are replaced by the stored outputs of running the script and nothing else changes.
   */
  method TestGeneratedCode(state: AgentState, run: seq<string> -> ProcessResult, executable: string) returns (r: Outcome)
    modifies state
    ensures old(state.scriptPath).None? ==>
              r == Fail(KeyError("script_path")) && state.Snapshot() == old(state.Snapshot())
    ensures old(state.scriptPath).Some? ==>
              var result := run(Command(Member(old(state.programmingLanguage)), old(state.scriptPath).value, executable));
              && r == Pass
              && state.Snapshot() == old(state.Snapshot()).(codeTestStdout := StoredOutputs(result).0,
                                                             codeTestStderr := StoredOutputs(result).1)
  {
    if state.scriptPath.None? {
      return Fail(KeyError("script_path"));
    }
    var cmd := Command(Member(state.programmingLanguage), state.scriptPath.value, executable);
    var result := run(cmd);
    if result.stdout != "" {
      state.codeTestStdout := result.stdout;
    } else {
      state.codeTestStdout := NoOutput;
    }
    if result.stderr != "" {
      state.codeTestStderr := result.stderr;
    } else {
      state.codeTestStderr := NoErrors;
    }
    r := Pass;
  }
}

=== FILE: config.dfy ===
/** Run configuration read once from the environment (`utils/config.py`). */
module Config {
  import opened Wrappers
  import opened Strings
  import opened Enums

  /**
   * `__load_language`: an unset or empty `AGENT_LANGUAGE` gives German; otherwise the
   * lower-cased value selects German for a "de" prefix, English for an "en" prefix and
   * falls back to German for anything else.
   */
  function LoadLanguage(env: Option<string>): (l: Language)
    ensures env.None? || env == Some("") ==> l == DE
    ensures env.Some? && StartsWith(Lower(env.value), "de") ==> l == DE
    ensures env.Some? && StartsWith(Lower(env.value), "en") ==> l == EN
    ensures l == EN <==> env.Some? && StartsWith(Lower(env.value), "en")
  {
    match env
    case None => DE
    case Some(v) =>
      if v == "" then DE
      else if StartsWith(Lower(v), "de") then DE
      else if StartsWith(Lower(v), "en") then EN
      else DE
  }

  /** The default of `MAX_REGENERATION_ATTEMPTS` when the variable is unset. */
  const DefaultMaxRegenerationAttempts: string := "3"

  /**
   * `int(os.getenv("MAX_REGENERATION_ATTEMPTS", "3"))`: the ceiling of the regeneration
   * loop, or the ValueError raised at import time for a value that is not an integer.
   */
  function MaxRegenerationAttempts(env: Option<string>): (r: Result<int>)
    ensures env.None? ==> r == Ok(3)
    ensures forall n: int :: env == Some(IntToString(n)) ==> r == Ok(n)
    ensures env == Some("") ==> r.Err?
  {
    ParseIntOfIntToString(3);
    assert IntToString(3) == DefaultMaxRegenerationAttempts;
    forall n: int | env == Some(IntToString(n)) ensures ParseInt(env.value) == Ok(n) {
      ParseIntOfIntToString(n);
    }
    match env
    case None => ParseInt(DefaultMaxRegenerationAttempts)
    case Some(v) => ParseInt(v)
  }
}

=== FILE: control_loop.dfy ===
/**
 * The generate, test, decide and regenerate cycle as a whole. Each pass tests the script,
 * stores the outputs with their sentinels and routes on the model's verdict; a regeneration
 * spends one attempt and leads back to the test. The subprocess results and the model's
 * verdicts are given per attempt count, since both lie outside the program.
 */
module ControlLoop {
  import opened CodeTesting
  import TestingEvaluation
  import LegacyAgent
  import Builder

  /** How a run of the cycle ended: the route out of the test node and how often it regenerated. */
  datatype Exit = Exit(route: string, regenerations: nat)

  /** The cycle of the newer snapshot, entered at the test node with `attempts` spent. */
  function Loop(attempts: int, max: int, isRefactoring: bool,
                result: int -> ProcessResult, verdict: int -> bool): (e: Exit)
    ensures e.route != TestingEvaluation.RegenerateCode
    ensures e.route == (if isRefactoring then TestingEvaluation.End else TestingEvaluation.Evaluate)
    decreases max - attempts
  {
    var stored := StoredOutputs(result(attempts));
    var route := TestingEvaluation.DecideRoute(stored.0, stored.1, verdict(attempts), attempts, max, isRefactoring);
    if route == TestingEvaluation.RegenerateCode then
      var rest := Loop(attempts + 1, max, isRefactoring, result, verdict);
      Exit(rest.route, rest.regenerations + 1)
    else
      Exit(route, 0)
  }

  /**
   * One pass of the cycle: it regenerates exactly when the model says yes within the budget,
   * whatever the script printed, and then continues with one more attempt spent.
   */
  lemma LoopStep(attempts: int, max: int, isRefactoring: bool,
                 result: int -> ProcessResult, verdict: int -> bool)
    ensures verdict(attempts) && attempts < max ==>
              Loop(attempts, max, isRefactoring, result, verdict).regenerations
                == Loop(attempts + 1, max, isRefactoring, result, verdict).regenerations + 1
    ensures !(verdict(attempts) && attempts < max) ==> Loop(attempts, max, isRefactoring, result, verdict).regenerations == 0
  {
    TestingEvaluation.RouteAfterTest(result(attempts), verdict(attempts), attempts, max, isRefactoring);
  }

  /** The cycle regenerates at most as often as the budget has attempts left, and never once it is spent. */
  lemma {:induction false} LoopIsBounded(attempts: int, max: int, isRefactoring: bool,
                                         result: int -> ProcessResult, verdict: int -> bool)
    ensures attempts <= max ==> Loop(attempts, max, isRefactoring, result, verdict).regenerations <= max - attempts
    ensures attempts >= max ==> Loop(attempts, max, isRefactoring, result, verdict).regenerations == 0
    decreases max - attempts
  {
    LoopStep(attempts, max, isRefactoring, result, verdict);
    if verdict(attempts) && attempts < max {
      LoopIsBounded(attempts + 1, max, isRefactoring, result, verdict);
    }
  }

  /** A model that always asks for regeneration uses up the whole budget, and no more. */
  lemma {:induction false} LoopExhaustsTheBudget(attempts: int, max: int, isRefactoring: bool,
                                                 result: int -> ProcessResult, verdict: int -> bool)
    requires attempts <= max
    requires forall k :: attempts <= k < max ==> verdict(k)
    ensures Loop(attempts, max, isRefactoring, result, verdict).regenerations == max - attempts
    decreases max - attempts
  {
    LoopStep(attempts, max, isRefactoring, result, verdict);
    if attempts < max {
      LoopExhaustsTheBudget(attempts + 1, max, isRefactoring, result, verdict);
    }
  }

  /**
   * The cycle regenerates exactly until the first attempt at which the model says no or the
   * budget is spent: with `n` regenerations, the model said yes at each of the `n` attempts before.
   */
  lemma {:induction false} LoopFollowsTheVerdicts(attempts: int, max: int, isRefactoring: bool,
                                                  result: int -> ProcessResult, verdict: int -> bool)
    ensures var n := Loop(attempts, max, isRefactoring, result, verdict).regenerations;
            && (n > 0 ==> attempts + n <= max)
            && (forall k :: attempts <= k < attempts + n ==> verdict(k))
            && (attempts + n < max ==> !verdict(attempts + n))
    decreases max - attempts
  {
    LoopStep(attempts, max, isRefactoring, result, verdict);
    if verdict(attempts) && attempts < max {
      LoopFollowsTheVerdicts(attempts + 1, max, isRefactoring, result, verdict);
    }
  }

  /**
   * What the script printed never decides the route: the sentinels make both outputs
   * non-empty, so two runs that differ only in the subprocess results end alike.
   */
  lemma {:induction false} LoopIgnoresTheOutputs(attempts: int, max: int, isRefactoring: bool,
                                                 result: int -> ProcessResult, other: int -> ProcessResult,
                                                 verdict: int -> bool)
    ensures Loop(attempts, max, isRefactoring, result, verdict) == Loop(attempts, max, isRefactoring, other, verdict)
    decreases max - attempts
  {
    TestingEvaluation.RouteAfterTest(result(attempts), verdict(attempts), attempts, max, isRefactoring);
    TestingEvaluation.RouteAfterTest(other(attempts), verdict(attempts), attempts, max, isRefactoring);
    if verdict(attempts) && attempts < max {
      LoopIgnoresTheOutputs(attempts + 1, max, isRefactoring, result, other, verdict);
    }
  }

  /** The route out of the cycle is one the graph has an edge for. */
  lemma LoopLeavesByAnEdge(attempts: int, max: int, isRefactoring: bool,
                           result: int -> ProcessResult, verdict: int -> bool)
    ensures Loop(attempts, max, isRefactoring, result, verdict).route in Builder.TestBranch
    ensures Builder.TestBranch[Loop(attempts, max, isRefactoring, result, verdict).route] != Builder.RegenerateCode
  {
  }

  /** The cycle of the older snapshot, with its fixed budget of three. */
  function LegacyLoop(attempts: int, result: int -> ProcessResult, verdict: int -> bool): (e: Exit)
    ensures e.route == LegacyAgent.End
    decreases LegacyAgent.MaxAttempts - attempts
  {
    var stored := StoredOutputs(result(attempts));
    var route := LegacyAgent.DecideRoute(stored.0, stored.1, verdict(attempts), attempts);
    if route == LegacyAgent.RegenerateCode then
      var rest := LegacyLoop(attempts + 1, result, verdict);
      Exit(rest.route, rest.regenerations + 1)
    else
      Exit(route, 0)
  }

  /** The older snapshot regenerates at most as often as its three attempts allow. */
  lemma {:induction false} LegacyLoopIsBounded(attempts: int, result: int -> ProcessResult, verdict: int -> bool)
    ensures attempts <= LegacyAgent.MaxAttempts ==>
              LegacyLoop(attempts, result, verdict).regenerations <= LegacyAgent.MaxAttempts - attempts
    ensures attempts >= LegacyAgent.MaxAttempts ==> LegacyLoop(attempts, result, verdict).regenerations == 0
    decreases LegacyAgent.MaxAttempts - attempts
  {
    var stored := StoredOutputs(result(attempts));
    if LegacyAgent.DecideRoute(stored.0, stored.1, verdict(attempts), attempts) == LegacyAgent.RegenerateCode {
      LegacyLoopIsBounded(attempts + 1, result, verdict);
    }
  }

  /** A model that always asks for regeneration makes the older snapshot regenerate exactly three times. */
  lemma {:induction false} LegacyLoopExhaustsTheBudget(attempts: int, result: int -> ProcessResult, verdict: int -> bool)
    requires attempts <= LegacyAgent.MaxAttempts
    requires forall k :: attempts <= k < LegacyAgent.MaxAttempts ==> verdict(k)
    ensures LegacyLoop(attempts, result, verdict).regenerations == LegacyAgent.MaxAttempts - attempts
    decreases LegacyAgent.MaxAttempts - attempts
  {
    if attempts < LegacyAgent.MaxAttempts {
      var stored := StoredOutputs(result(attempts));
      assert LegacyAgent.DecideRoute(stored.0, stored.1, verdict(attempts), attempts) == LegacyAgent.RegenerateCode;
      LegacyLoopExhaustsTheBudget(attempts + 1, result, verdict);
    }
  }

  /** The route out of the older cycle ends the run. */
  lemma LegacyLoopLeavesByAnEdge(attempts: int, result: int -> ProcessResult, verdict: int -> bool)
    ensures LegacyAgent.TestBranch[LegacyLoop(attempts, result, verdict).route] == LegacyAgent.EndNode
  {
  }
}

=== FILE: enums.dfy ===
/** The string enumerations of `utils/enums` (and their copies at the top of `agent.py`). */
module Enums {

  /** Language of the prompts and of the response schemas. */
  datatype Language = DE | EN {
    function Value(): string {
      match this
      case DE => "de"
      case EN => "en"
    }
  }

  /** Language of the generated plotting script; `Value` is also the file extension. */
  datatype ProgrammingLanguage = Python | R {
    function Value(): string {
      match this
      case Python => "py"
      case R => "r"
    }
  }

  /**
   * A value found where an enumeration member is expected. Python does not enforce the
   * annotation, so the code's `else` branches can meet anything; `NotAMember` stands for
   * such a value, described by its `str()`.
   */
  datatype Tagged<E> = Member(member: E) | NotAMember(text: string)
}

=== FILE: first_pass.dfy ===
/**
 * The first pass through the test node in the current graph of `graph/builder.py`: a
 * generate node followed by `test_generated_code`. As written, neither generate node
 * records `script_path`, and no node before them does either, so the first test raises
 * `KeyError`. The corrected pass ends its generate step the way `generate_and_write_code`
 * does, which records the script it writes, and the test then runs that script.
 */
module FirstPass {
  import opened Wrappers
  import opened Enums
  import opened Messages
  import opened OutputDir
  import opened State
  import opened PipelineUtils
  import opened CodeTesting
  import CodeGeneration

  /**
   * As written: the language branch, `llm_generate_python_code` or `llm_generate_r_code`,
   * then the test. A state without `script_path` keeps it absent through the generate
   * node, so a generate step that succeeds is followed by `KeyError('script_path')`; one
   * that fails stops the run with its own error.
   */
  method FirstTestAsWritten(state: AgentState, undeletable: set<string>,
                            agent: (Content, seq<Message>) -> AgentResponse<VisualizationContainer>,
                            run: seq<string> -> ProcessResult, executable: string)
    returns (generated: Outcome, tested: Outcome)
    requires state.scriptPath.None?
    modifies state, state.output
    ensures generated.Pass? ==> tested == Fail(KeyError("script_path"))
    ensures generated.Fail? ==> tested == generated
  {
    ghost var before := state.Snapshot();
    ghost var entries := state.output.entries;
    if state.programmingLanguage == Python {
      generated := CodeGeneration.LlmGeneratePythonCode(state, undeletable, agent);
      CodeGeneration.GenerationEffects(before, entries, undeletable, CodeGeneration.PythonGenerator,
                                       state.datasetPath, state.datasetRows, state.output.path, agent);
    } else {
      generated := CodeGeneration.LlmGenerateRCode(state, undeletable, agent);
      CodeGeneration.GenerationEffects(before, entries, undeletable, CodeGeneration.RGenerator,
                                       state.datasetPath, state.datasetRows, state.output.path, agent);
    }
    if generated.Fail? {
      return generated, generated;
    }
    assert state.scriptPath == before.scriptPath;
    tested := TestGeneratedCode(state, run, executable);
  }

  /**
   * Corrected: the generate step writes the script and records its path, as
   * `generate_and_write_code` does, so a generate step that succeeds is followed by a
   * passing test that ran the script in the output directory with the language's
   * interpreter and stored what it printed.
   */
  method FirstTestCorrected(state: AgentState, agent: seq<Message> -> AgentResponse<Code>,
                            messages: seq<Message>, callingMethodName: string,
                            run: seq<string> -> ProcessResult, executable: string)
    returns (generated: Outcome, tested: Outcome)
    modifies state, state.output
    ensures generated.Pass? ==>
              var script := Join(state.output.path, ScriptName(state.programmingLanguage));
              var result := run(Command(Member(state.programmingLanguage), script, executable));
              && tested == Pass
              && state.scriptPath == Some(script)
              && state.codeTestStdout == StoredOutputs(result).0
              && state.codeTestStderr == StoredOutputs(result).1
    ensures generated.Fail? ==> tested == generated
  {
    ghost var before := state.Snapshot();
    ghost var entries := state.output.entries;
    generated := GenerateAndWriteCode(state, agent, messages, callingMethodName);
    GeneratedTouchesNothingElse(before, entries, state.output.path, agent(messages), callingMethodName);
    if generated.Fail? {
      return generated, generated;
    }
    assert state.programmingLanguage == before.programmingLanguage;
    tested := TestGeneratedCode(state, run, executable);
  }
}

=== FILE: legacy_agent.dfy ===
/**
 * The older, single-file snapshot of the agent in `agent.py`: the same generate, test,
 * decide and regenerate loop with a fixed budget of three regenerations, no metadata
 * bookkeeping, no refactoring and the script written to `./output/generate_plots.<ext>`.
 */
module LegacyAgent {
  import opened Wrappers
  import opened Strings
  import opened Enums
  import opened Messages
  import opened OutputDir
  import opened State
  import opened CodeTesting
  import Config
  import CodeGeneration

  /** `determine_language`: German unless the lower-cased variable starts with "en". */
  function DetermineLanguage(env: Option<string>): (l: Language)
    ensures env.None? || env.value == "" ==> l == DE
    ensures env.Some? && StartsWith(Lower(env.value), "de") ==> l == DE
    ensures l == EN <==> env.Some? && StartsWith(Lower(env.value), "en")
  {
    Config.LoadLanguage(env)
  }

  /** `decide_programming_language` of this snapshot; its error message has no final period. */
  function DecideProgrammingLanguage(language: Tagged<ProgrammingLanguage>): (r: Result<string>)
    ensures r.Ok? <==> CodeGeneration.DecideProgrammingLanguage(language).Ok?
    ensures r.Ok? ==> r == CodeGeneration.DecideProgrammingLanguage(language)
    ensures r.Err? ==> r == Err(ValueError("Unsupported programming language"))
  {
    match CodeGeneration.DecideProgrammingLanguage(language)
    case Ok(key) => Ok(key)
    case Err(_) => Err(ValueError("Unsupported programming language"))
  }

  /** The directory `clear_output_dir` lists and the script is written to. */
  const OutputPath: string := "./output/"

  /** This snapshot's `files_to_keep`: the Python script is not among them. */
  const FilesToKeep: set<string> := {".gitignore", ".gitkeep", "graph.png", "generate_plots.r"}

  /** `MAX_ATTEMPTS` of `decide_regenerate_code`. */
  const MaxAttempts: int := 3

  const RegenerateCode: string := "regenerate_code"
  const End: string := "end"

  /** `"./output/generate_plots." + programming_language.value` */
  function ScriptPath(language: ProgrammingLanguage): string {
    "./output/generate_plots." + language.Value()
  }

  function ScriptName(language: ProgrammingLanguage): string {
    "generate_plots." + language.Value()
  }

  /** The script path names the script inside the output directory. */
  lemma ScriptPathIsInOutput(language: ProgrammingLanguage)
    ensures ScriptPath(language) == Join(OutputPath, ScriptName(language))
    ensures NameIn(OutputPath, ScriptPath(language)) == Some(ScriptName(language))
  {
    var name := ScriptName(language);
    assert name == "generate_plots.py" || name == "generate_plots.r";
    assert '/' !in name;
    assert Separated(OutputPath) == OutputPath by {
      assert OutputPath[|OutputPath| - 1..] == "/";
    }
    NameInJoin(OutputPath, name);
  }

  /**
   * Clearing keeps the R script, but a deletable Python script is removed: the regenerate
   * node deletes the script before writing its successor.
   */
  lemma ClearingRemovesThePythonScript(entries: map<string, Entry>, undeletable: set<string>)
    ensures ScriptName(R) in entries ==> ScriptName(R) in Cleared(entries, FilesToKeep, undeletable)
    ensures (ScriptName(Python) in entries && entries[ScriptName(Python)].RegularFile? && ScriptName(Python) !in undeletable)
              ==> ScriptName(Python) !in Cleared(entries, FilesToKeep, undeletable)
  {
    assert ScriptName(R) == "generate_plots.r";
    assert ScriptName(Python) != "generate_plots.r" by {
      assert |ScriptName(Python)| != |"generate_plots.r"|;
    }
  }

  /** The routing of this snapshot: regenerate, or end the run. */
  function DecideRoute(stdout: string, stderr: string, verdict: bool, attempts: int): (route: string)
    ensures route == RegenerateCode <==> (stdout != "" || stderr != "") && verdict && attempts < MaxAttempts
    ensures route != RegenerateCode ==> route == End
  {
    if stdout != "" || stderr != "" then
      if verdict && attempts < MaxAttempts then RegenerateCode else End
    else End
  }

  /** The fields of this snapshot's state. */
  datatype LegacyFields = LegacyFields(
    messages: seq<Message>,
    summary: Option<Summary>,
    codeTestStdout: string,
    codeTestStderr: string,
    code: Option<Code>,
    scriptPath: Option<string>,
    regenerationAttempts: int,
    programmingLanguage: ProgrammingLanguage)

  /** This snapshot's `AgentState`; `output` is the directory `./output/`. */
  class LegacyState {
    const output: Directory
    const datasetPath: string
    const datasetRows: seq<string>
    var messages: seq<Message>
    var summary: Option<Summary>
    var codeTestStdout: string
    var codeTestStderr: string
    var code: Option<Code>
    var scriptPath: Option<string>
    var regenerationAttempts: int
    var programmingLanguage: ProgrammingLanguage

    function Snapshot(): LegacyFields
      reads this
    {
      LegacyFields(messages, summary, codeTestStdout, codeTestStderr, code, scriptPath,
                   regenerationAttempts, programmingLanguage)
    }

    /** The state the graph is invoked with: no regeneration yet. */
    constructor (output: Directory, datasetPath: string, datasetRows: seq<string>, programmingLanguage: ProgrammingLanguage)
      requires output.path == OutputPath
      ensures this.output == output && this.datasetPath == datasetPath && this.datasetRows == datasetRows
      ensures Snapshot() == LegacyFields([], None, "", "", None, None, 0, programmingLanguage)
    {
      this.output := output;
      this.datasetPath := datasetPath;
      this.datasetRows := datasetRows;
      messages := [];
      summary := None;
      codeTestStdout := "";
      codeTestStderr := "";
      code := None;
      scriptPath := None;
      regenerationAttempts := 0;
      this.programmingLanguage := programmingLanguage;
    }
  }

  /** `test_generated_code`: the same command choice and sentinels as the newer snapshot. */
  method TestGeneratedCode(state: LegacyState, run: seq<string> -> ProcessResult, executable: string) returns (r: Outcome)
    modifies state
    ensures old(state.scriptPath).None? ==>
              r == Fail(KeyError("script_path")) && state.Snapshot() == old(state.Snapshot())
    ensures old(state.scriptPath).Some? ==>
              var result := run(Command(Member(old(state.programmingLanguage)), old(state.scriptPath).value, executable));
              && r == Pass
              && state.Snapshot() == old(state.Snapshot()).(codeTestStdout := StoredOutputs(result).0,
                                                             codeTestStderr := StoredOutputs(result).1)
  {
    if state.scriptPath.None? {
      return Fail(KeyError("script_path"));
    }
    var result := run(Command(Member(state.programmingLanguage), state.scriptPath.value, executable));
    if result.stdout != "" {
      state.codeTestStdout := result.stdout;
    } else {
      state.codeTestStdout := NoOutput;
    }
    if result.stderr != "" {
      state.codeTestStderr := result.stderr;
    } else {
      state.codeTestStderr := NoErrors;
    }
    r := Pass;
  }

  /**
   * `decide_regenerate_code`: the agent sees the system prompt and the outputs, and is asked
   * only when there is output. Nothing in the state changes.
   */
  method DecideRegenerateCode(state: LegacyState, agent: seq<Message> -> AgentResponse<Regeneration>)
    returns (route: string)
    ensures state.codeTestStdout == "" && state.codeTestStderr == "" ==> route == End
    ensures state.codeTestStdout != "" || state.codeTestStderr != "" ==>
              var prompts := [SystemMessage(DecideRegenerateSystemPrompt),
                              HumanMessage(DecideRegeneratePrompt(state.codeTestStdout, state.codeTestStderr))];
              route == DecideRoute(state.codeTestStdout, state.codeTestStderr,
                                   agent(prompts).structured.shouldBeRegenerated, state.regenerationAttempts)
  {
    if state.codeTestStdout != "" || state.codeTestStderr != "" {
      var systemPrompt := SystemMessage(DecideRegenerateSystemPrompt);
      var userPrompt := HumanMessage(DecideRegeneratePrompt(state.codeTestStdout, state.codeTestStderr));
      var response := agent([systemPrompt, userPrompt]);
      if response.structured.shouldBeRegenerated && state.regenerationAttempts < MaxAttempts {
        route := RegenerateCode;
      } else {
        route := End;
      }
    } else {
      route := End;
    }
  }

  /** What a node leaves behind in this snapshot. */
  datatype LegacyEffect = LegacyEffect(outcome: Outcome, fields: LegacyFields, entries: map<string, Entry>)

  /**
   * `_generate_and_write_code`: the conversation is sent to the agent and replaced by its
   * answer's messages, the script path is set, and the code is recorded and written unless
   * a directory stands in the script's place.
   */
  function Generated(before: LegacyFields, entries: map<string, Entry>, response: AgentResponse<Code>): LegacyEffect {
    var name := ScriptName(before.programmingLanguage);
    var withPath := before.(messages := response.messages, scriptPath := Some(ScriptPath(before.programmingLanguage)));
    if name in entries && entries[name].Folder? then
      LegacyEffect(Fail(IsADirectoryError(ScriptPath(before.programmingLanguage))), withPath, entries)
    else
      LegacyEffect(Pass, withPath.(code := Some(response.structured)),
                   entries[name := RegularFile(response.structured.code)])
  }

  /** On success the script in `./output/` holds the new code; only four fields are written. */
  lemma GeneratedWritesTheScript(before: LegacyFields, entries: map<string, Entry>, response: AgentResponse<Code>)
    ensures var e := Generated(before, entries, response);
            var name := ScriptName(before.programmingLanguage);
            && e.fields.scriptPath == Some(ScriptPath(before.programmingLanguage))
            && e.fields.messages == response.messages
            && (e.outcome.Pass? <==> !(name in entries && entries[name].Folder?))
            && (e.outcome.Pass? ==> e.fields.code == Some(response.structured)
                                    && name in e.entries && e.entries[name] == RegularFile(response.structured.code))
            && e.fields.(messages := before.messages, scriptPath := before.scriptPath, code := before.code) == before
  {
  }

  method GenerateAndWriteCode(state: LegacyState, agent: seq<Message> -> AgentResponse<Code>) returns (r: Outcome)
    requires state.output.path == OutputPath
    modifies state, state.output
    ensures LegacyEffect(r, state.Snapshot(), state.output.entries)
              == Generated(old(state.Snapshot()), old(state.output.entries), agent(old(state.messages)))
  {
    var response := agent(state.messages);
    state.messages := response.messages;
    state.scriptPath := Some(ScriptPath(state.programmingLanguage));
    ScriptPathIsInOutput(state.programmingLanguage);
    var written := state.output.WriteFile(ScriptName(state.programmingLanguage), response.structured.code);
    if written.Fail? {
      return written;
    }
    state.code := Some(response.structured);
    r := Pass;
  }

  /** The request for a fixed script, as in the newer snapshot. */
  function RegenerationRequest(fields: LegacyFields): Message {
    var explanation := if fields.code.Some? then fields.code.value.explanation else "";
    var code := if fields.code.Some? then fields.code.value.code else "";
    HumanMessage(RegenerateCodePrompt(fields.codeTestStdout, fields.codeTestStderr, explanation, code))
  }

  /** `llm_regenerate_code`: append the request, clear `./output/`, spend one attempt, regenerate. */
  function Regenerated(before: LegacyFields, entries: map<string, Entry>, undeletable: set<string>,
                       agent: seq<Message> -> AgentResponse<Code>): LegacyEffect {
    var conversation := before.messages + [RegenerationRequest(before)];
    Generated(before.(messages := conversation, regenerationAttempts := before.regenerationAttempts + 1),
              Cleared(entries, FilesToKeep, undeletable), agent(conversation))
  }

  /** Regeneration spends exactly one attempt, and the agent sees exactly one new request. */
  lemma RegenerationSpendsOneAttempt(before: LegacyFields, entries: map<string, Entry>, undeletable: set<string>,
                                     agent: seq<Message> -> AgentResponse<Code>)
    ensures var e := Regenerated(before, entries, undeletable, agent);
            && e.fields.regenerationAttempts == before.regenerationAttempts + 1
            && e.fields.programmingLanguage == before.programmingLanguage
            && e.fields.messages == agent(before.messages + [RegenerationRequest(before)]).messages
  {
  }

  method LlmRegenerateCode(state: LegacyState, agent: seq<Message> -> AgentResponse<Code>, undeletable: set<string>)
    returns (r: Outcome)
    requires state.output.path == OutputPath
    modifies state, state.output
    ensures LegacyEffect(r, state.Snapshot(), state.output.entries)
              == Regenerated(old(state.Snapshot()), old(state.output.entries), undeletable, agent)
  {
    state.messages := state.messages + [RegenerationRequest(state.Snapshot())];
    var _ := state.output.ClearOutputDir(FilesToKeep, undeletable);
    state.regenerationAttempts := state.regenerationAttempts + 1;
    r := GenerateAndWriteCode(state, agent);
  }

  /**
   * `llm_generate_python_code` and `llm_generate_r_code`: clear `./output/`, append the
   * generation request and generate. The R request also carries the summary and its columns.
   */
  function GenerationRequest(fields: LegacyFields, language: ProgrammingLanguage, datasetPath: string,
                             datasetRows: seq<string>): Message {
    var summaryTexts := if fields.summary.Some? then (fields.summary.value.columns, fields.summary.value.summary) else ("", "");
    if language == Python then
      HumanMessage(LegacyGenerateCodePrompt("generate_python_code", datasetPath, ";",
                                            if |datasetRows| <= 5 then datasetRows else datasetRows[..5], None))
    else
      HumanMessage(LegacyGenerateCodePrompt("generate_r_code", datasetPath, ";",
                                            if |datasetRows| <= 10 then datasetRows else datasetRows[..10], Some(summaryTexts)))
  }

  method LlmGenerateCode(state: LegacyState, language: ProgrammingLanguage,
                          agent: seq<Message> -> AgentResponse<Code>, undeletable: set<string>) returns (r: Outcome)
    requires state.output.path == OutputPath
    modifies state, state.output
    ensures var request := GenerationRequest(old(state.Snapshot()), language, state.datasetPath, state.datasetRows);
            LegacyEffect(r, state.Snapshot(), state.output.entries)
              == Generated(old(state.Snapshot()).(messages := old(state.messages) + [request]),
                           Cleared(old(state.output.entries), FilesToKeep, undeletable),
                           agent(old(state.messages) + [request]))
  {
    var _ := state.output.ClearOutputDir(FilesToKeep, undeletable);
    var request := GenerationRequest(state.Snapshot(), language, state.datasetPath, state.datasetRows);
    state.messages := state.messages + [request];
    r := GenerateAndWriteCode(state, agent);
  }

  /** This snapshot's graph around the loop. */
  datatype LegacyNode = SummaryNode | PythonNode | RNode | TestNode | RegenerateNode | EndNode

  /** The branch after the summary, keyed by `decide_programming_language`'s answer. */
  const LanguageBranch: map<string, LegacyNode> := map["python" := PythonNode, "r" := RNode]

  /** Every answer the language decision gives has an edge. */
  lemma LanguageRoutesHaveEdges(language: Tagged<ProgrammingLanguage>)
    ensures DecideProgrammingLanguage(language).Ok? ==> DecideProgrammingLanguage(language).value in LanguageBranch
    ensures language == Member(Python) ==> LanguageBranch[DecideProgrammingLanguage(language).value] == PythonNode
    ensures language == Member(R) ==> LanguageBranch[DecideProgrammingLanguage(language).value] == RNode
  {
  }

  const TestBranch: map<string, LegacyNode> := map[RegenerateCode := RegenerateNode, End := EndNode]

  function Edge(n: LegacyNode): Option<LegacyNode> {
    match n
    case PythonNode => Some(TestNode)
    case RNode => Some(TestNode)
    case RegenerateNode => Some(TestNode)
    case _ => None
  }

  /** Every route of this snapshot has an edge, and regeneration leads back to the test. */
  lemma RoutesHaveEdges(stdout: string, stderr: string, verdict: bool, attempts: int)
    ensures DecideRoute(stdout, stderr, verdict, attempts) in TestBranch
    ensures var route := DecideRoute(stdout, stderr, verdict, attempts);
            TestBranch[route] == RegenerateNode <==> route == RegenerateCode
    ensures Edge(RegenerateNode) == Some(TestNode)
  {
  }
}

=== FILE: llm_metadata.dfy ===
/** `LLMMetadata.from_ai_message` of `utils/llm_metadata.py`: a projection of nested dictionaries. */
module LlmMetadata {
  import opened Wrappers
  import opened Messages

  datatype TokenUsage = TokenUsage(completionTokens: Option<int>, promptTokens: Option<int>, totalTokens: Option<int>)

  datatype CostDetails = CostDetails(
    totalCost: Option<real>,
    costUpstreamInference: Option<real>,
    costUpstreamInferencePrompt: Option<real>,
    costUpstreamInferenceCompletions: Option<real>)

  datatype LLMMetadata = LLMMetadata(
    methodName: string,
    message: Message,
    tokenUsage: TokenUsage,
    costDetails: CostDetails,
    modelName: Value)

  /** pydantic's check of an `Optional[int]` field (lax mode, numeric strings excepted). */
  function OptionalInt(v: Value): (r: Option<Option<int>>)
    ensures v.VNone? ==> r == Some(None)
    ensures v.VInt? ==> r == Some(Some(v.i))
    ensures v.VBool? ==> r == Some(Some(if v.b then 1 else 0))
    ensures v.VReal? ==> (r.Some? <==> v.r == v.r.Floor as real) && (r.Some? ==> r.value == Some(v.r.Floor))
    ensures v.VStr? || v.VDict? ==> r.None?
  {
    match v
    case VNone => Some(None)
    case VInt(i) => Some(Some(i))
    case VBool(b) => Some(Some(if b then 1 else 0))
    case VReal(x) => if x.Floor as real == x then Some(Some(x.Floor)) else None
    case _ => None
  }

  /** pydantic's check of an `Optional[float]` field (lax mode, numeric strings excepted). */
  function OptionalFloat(v: Value): (r: Option<Option<real>>)
    ensures v.VNone? ==> r == Some(None)
    ensures v.VReal? ==> r == Some(Some(v.r))
    ensures v.VInt? ==> r == Some(Some(v.i as real))
    ensures v.VBool? ==> r == Some(Some(if v.b then 1.0 else 0.0))
    ensures v.VStr? || v.VDict? ==> r.None?
  {
    match v
    case VNone => Some(None)
    case VInt(i) => Some(Some(i as real))
    case VBool(b) => Some(Some(if b then 1.0 else 0.0))
    case VReal(x) => Some(Some(x))
    case _ => None
  }

  /** `getattr(ai_message, "response_metadata", {}) or {}` */
  function ResponseMetadata(m: Message): Result<map<string, Value>> {
    AsDict(if m.responseMetadata.None? then VDict(map[]) else m.responseMetadata.value)
  }

  function BuildTokenUsage(tokenUsageData: map<string, Value>): Result<TokenUsage> {
    var completion := OptionalInt(Get(tokenUsageData, "completion_tokens", VNone));
    var prompt := OptionalInt(Get(tokenUsageData, "prompt_tokens", VNone));
    var total := OptionalInt(Get(tokenUsageData, "total_tokens", VNone));
    if completion.Some? && prompt.Some? && total.Some? then
      Ok(TokenUsage(completion.value, prompt.value, total.value))
    else
      Err(ValidationError("TokenUsage"))
  }

  function BuildCostDetails(tokenUsageData: map<string, Value>, costDetailsData: map<string, Value>): Result<CostDetails> {
    var total := OptionalFloat(Get(tokenUsageData, "cost", VNone));
    var upstream := OptionalFloat(Get(costDetailsData, "upstream_inference_cost", VNone));
    var upstreamPrompt := OptionalFloat(Get(costDetailsData, "upstream_inference_prompt_cost", VNone));
    var upstreamCompletion := OptionalFloat(Get(costDetailsData, "upstream_inference_completion_cost", VNone));
    if total.Some? && upstream.Some? && upstreamPrompt.Some? && upstreamCompletion.Some? then
      Ok(CostDetails(total.value, upstream.value, upstreamPrompt.value, upstreamCompletion.value))
    else
      Err(ValidationError("CostDetails"))
  }

  /**
   * `LLMMetadata.from_ai_message`: the token counts and costs of one response, tagged
   * with the name of the node that made the call.
   */
  function FromAiMessage(m: Message, callingMethodName: string): (r: Result<LLMMetadata>)
    ensures r.Ok? ==> r.value.methodName == callingMethodName && r.value.message == m
    ensures ResponseMetadata(m).Err? ==> r.Err?
  {
    var metadata :- ResponseMetadata(m);
    var tokenUsageData :- AsDict(Get(metadata, "token_usage", VDict(map[])));
    var modelName := Get(metadata, "model_name", VStr("Unknown"));
    var tokenUsage :- BuildTokenUsage(tokenUsageData);
    // `cost_details_data.get` first runs while the `CostDetails` arguments are evaluated,
    // after `TokenUsage` has been validated
    var costDetailsData :- AsDict(Get(tokenUsageData, "cost_details", VDict(map[])));
    var costDetails :- BuildCostDetails(tokenUsageData, costDetailsData);
    Ok(LLMMetadata(callingMethodName, m, tokenUsage, costDetails, modelName))
  }

  const NoTokenUsage: TokenUsage := TokenUsage(None, None, None)
  const NoCostDetails: CostDetails := CostDetails(None, None, None, None)

  /** A message without (or with a falsy) `response_metadata` yields all defaults. */
  lemma MissingMetadataGivesDefaults(m: Message, callingMethodName: string)
    requires m.responseMetadata.None? || !Truthy(m.responseMetadata.value)
    ensures FromAiMessage(m, callingMethodName)
         == Ok(LLMMetadata(callingMethodName, m, NoTokenUsage, NoCostDetails, VStr("Unknown")))
  {
  }

  /** A falsy `token_usage` or `cost_details` is read as an empty dict. */
  lemma FalsyNestedDictsAreEmpty(m: Message, metadata: map<string, Value>, callingMethodName: string)
    requires ResponseMetadata(m) == Ok(metadata)
    requires !Truthy(Get(metadata, "token_usage", VDict(map[])))
    ensures FromAiMessage(m, callingMethodName)
         == Ok(LLMMetadata(callingMethodName, m, NoTokenUsage, NoCostDetails,
                           Get(metadata, "model_name", VStr("Unknown"))))
  {
  }

  /** `model_name` is copied when present and defaults to "Unknown". */
  lemma ModelNameDefault(m: Message, metadata: map<string, Value>, callingMethodName: string)
    requires ResponseMetadata(m) == Ok(metadata)
    requires FromAiMessage(m, callingMethodName).Ok?
    ensures "model_name" !in metadata ==> FromAiMessage(m, callingMethodName).value.modelName == VStr("Unknown")
    ensures "model_name" in metadata ==> FromAiMessage(m, callingMethodName).value.modelName == metadata["model_name"]
  {
  }

  /**
   * The three token counts come from `token_usage` (None when missing), `total_cost` from
   * its `cost` key, and the upstream costs from the nested `cost_details`.
   */
  lemma FieldsComeFromTheirDicts(m: Message, metadata: map<string, Value>, tokenUsageData: map<string, Value>,
                                 costDetailsData: map<string, Value>, callingMethodName: string)
    requires ResponseMetadata(m) == Ok(metadata)
    requires "token_usage" in metadata && metadata["token_usage"] == VDict(tokenUsageData)
    requires AsDict(Get(tokenUsageData, "cost_details", VDict(map[]))) == Ok(costDetailsData)
    requires FromAiMessage(m, callingMethodName).Ok?
    ensures var md := FromAiMessage(m, callingMethodName).value;
      && md.tokenUsage.totalTokens == OptionalInt(Get(tokenUsageData, "total_tokens", VNone)).value
      && md.tokenUsage.promptTokens == OptionalInt(Get(tokenUsageData, "prompt_tokens", VNone)).value
      && md.tokenUsage.completionTokens == OptionalInt(Get(tokenUsageData, "completion_tokens", VNone)).value
      && md.costDetails.totalCost == OptionalFloat(Get(tokenUsageData, "cost", VNone)).value
      && md.costDetails.costUpstreamInference == OptionalFloat(Get(costDetailsData, "upstream_inference_cost", VNone)).value
      && md.costDetails.costUpstreamInferencePrompt
         == OptionalFloat(Get(costDetailsData, "upstream_inference_prompt_cost", VNone)).value
      && md.costDetails.costUpstreamInferenceCompletions
         == OptionalFloat(Get(costDetailsData, "upstream_inference_completion_cost", VNone)).value
  {
  }

  /**
   * `TokenUsage` is validated before `cost_details` is first read, so an invalid token count
   * raises its validation error whatever `cost_details` holds.
   */
  lemma TokenUsageIsValidatedFirst(m: Message, metadata: map<string, Value>, tokenUsageData: map<string, Value>,
                                   callingMethodName: string)
    requires ResponseMetadata(m) == Ok(metadata)
    requires AsDict(Get(metadata, "token_usage", VDict(map[]))) == Ok(tokenUsageData)
    requires OptionalInt(Get(tokenUsageData, "total_tokens", VNone)).None?
    ensures FromAiMessage(m, callingMethodName) == Err(ValidationError("TokenUsage"))
  {
  }

  /** `total_cost` ignores `cost_details`: a `total_cost` there is never read. */
  lemma TotalCostIgnoresCostDetails(m: Message, metadata: map<string, Value>, tokenUsageData: map<string, Value>,
                                    callingMethodName: string)
    requires ResponseMetadata(m) == Ok(metadata)
    requires "token_usage" in metadata && metadata["token_usage"] == VDict(tokenUsageData)
    requires "cost" !in tokenUsageData
    requires FromAiMessage(m, callingMethodName).Ok?
    ensures FromAiMessage(m, callingMethodName).value.costDetails.totalCost == None
  {
  }
}

=== FILE: messages.dfy ===
/**
 * Chat messages exchanged with the language model, and the JSON-like values found in
 * their `response_metadata`. The text of a prompt is outside the model: a prompt is
 * represented by the template it comes from and the arguments it is formatted with.
 */
module Messages {
  import opened Wrappers

  /** A Python value as found in a response's metadata dictionaries. */
  datatype Value =
    | VNone
    | VBool(b: bool)
    | VInt(i: int)
    | VReal(r: real)
    | VStr(s: string)
    | VDict(entries: map<string, Value>)

  /** Python truthiness: `None`, `False`, zero, the empty string and the empty dict are false. */
  predicate Truthy(v: Value) {
    match v
    case VNone => false
    case VBool(b) => b
    case VInt(i) => i != 0
    case VReal(r) => r != 0.0
    case VStr(s) => s != ""
    case VDict(m) => m != map[]
  }

  /** `d.get(key, default)` */
  function Get(d: map<string, Value>, key: string, default: Value): (v: Value)
    ensures key in d ==> v == d[key]
    ensures key !in d ==> v == default
  {
    if key in d then d[key] else default
  }

  /**
   * `(v or {})` used as a dictionary: a falsy value becomes the empty dict, a dict is
   * kept, and any other truthy value has no `.get`, so the next lookup raises.
   */
  function AsDict(v: Value): (r: Result<map<string, Value>>)
    ensures !Truthy(v) ==> r == Ok(map[])
    ensures v.VDict? ==> r == Ok(v.entries)
    ensures r.Err? <==> Truthy(v) && !v.VDict?
  {
    if !Truthy(v) then Ok(map[])
    else if v.VDict? then Ok(v.entries)
    else Err(AttributeError("get"))
  }

  datatype Role = Human | Ai | System

  /** The content of a message: the prompt template it was formatted from, with its arguments. */
  datatype Content =
    | Text(text: string)  // free text, such as the model's own answers
    | DecideRegenerateSystemPrompt
    | DecideRegeneratePrompt(testStdout: string, testStderr: string)
    | RegenerateCodePrompt(testStdout: string, testStderr: string, codeExplanation: string, code: string)
    | RefactorPrompt(code: string, judgeMessages: string)
    | GenerateCodeSystemPrompt(programmingLanguage: string, libraryInstructionKey: string)
    | GenerateCodeDescriptionPrompt(summary: string, columns: string, visualizationGoals: string)
    | GenerateCodePrompt(templateKey: string, datasetPath: string, datasetSeparator: string,
                         datasetHead: seq<string>, outputPath: string)
    | LegacyGenerateCodePrompt(templateKey: string, datasetPath: string, datasetSeparator: string,
                               datasetHead: seq<string>, columnsAndSummary: Option<(string, string)>)

  /** A chat message; `responseMetadata` is `None` when the message carries no such attribute. */
  datatype Message = Message(role: Role, content: Content, responseMetadata: Option<Value>)

  function HumanMessage(content: Content): (m: Message)
    ensures m.role == Human && m.content == content
  {
    Message(Human, content, None)
  }

  function SystemMessage(content: Content): (m: Message)
    ensures m.role == System && m.content == content
  {
    Message(System, content, None)
  }

  /** What an agent's `invoke` returns: the structured response and the full message list. */
  datatype AgentResponse<T> = AgentResponse(structured: T, messages: seq<Message>)
}

=== FILE: metadata_analysis.dfy ===
/** The predicate filter applied to RDF metadata triples (`pipeline/metadata_analysis.py`). */
module MetadataAnalysis {

  const RDF: string := "http://www.w3.org/1999/02/22-rdf-syntax-ns#"
  const RDF_SCHEMA: string := "http://www.w3.org/2000/01/rdf-schema#"
  const DC: string := "http://purl.org/dc/terms/"
  const DCAT: string := "http://www.w3.org/ns/dcat#"
  const DCATDE: string := "http://dcat-ap.de/def/dcatde/"
  const ADMS: string := "http://www.w3.org/ns/adms#"
  const SPDX: string := "http://spdx.org/rdf/terms#"
  const VCARD: string := "http://www.w3.org/2006/vcard/ns#"
  const FOAF: string := "http://xmlns.com/foaf/0.1/"
  const SKOS: string := "http://www.w3.org/2004/02/skos/core#"
  const LOCN: string := "http://www.w3.org/ns/locn#"
  const OWL: string := "http://www.w3.org/2002/07/owl#"
  const DATAEU: string := "http://data.europa.eu/r5r/"

  /**
   * What `Namespace.<name>` evaluates to. A namespace is a `str`, so a name that is
   * already an attribute of `str` (a method such as `format`) resolves to that bound
   * method; every other name is turned into the URI `namespace + name`.
   */
  datatype NamespaceAttribute = Uri(uri: string) | BoundStrMethod(name: string)

  /** The public method names of Python's `str` (the namespace class overrides `title`). */
  const StrMethodNames: set<string> := {
    "capitalize", "casefold", "center", "count", "encode", "endswith", "expandtabs", "find",
    "format", "format_map", "index", "isalnum", "isalpha", "isascii", "isdecimal", "isdigit",
    "isidentifier", "islower", "isnumeric", "isprintable", "isspace", "istitle", "isupper",
    "join", "ljust", "lower", "lstrip", "maketrans", "partition", "removeprefix", "removesuffix",
    "replace", "rfind", "rindex", "rjust", "rpartition", "rsplit", "rstrip", "split",
    "splitlines", "startswith", "strip", "swapcase", "translate", "upper", "zfill"
  }

  function Attr(namespace: string, name: string): NamespaceAttribute {
    if name in StrMethodNames then BoundStrMethod(name) else Uri(namespace + name)
  }

  /** `str()` of a namespace attribute; a bound method prints as its repr (address left out). */
  function AttrStr(a: NamespaceAttribute): string {
    match a
    case Uri(u) => u
    case BoundStrMethod(name) => "<built-in method " + name + " of Namespace object>"
  }

  function S(namespace: string, name: string): string {
    AttrStr(Attr(namespace, name))
  }

  /** The `str()` of the given attributes of one namespace. */
  function NamespaceTerms(namespace: string, names: set<string>): set<string> {
    set name | name in names :: S(namespace, name)
  }

  /** `{str(p) for p in excluded_predicates}`, grouped into the RDF and DCAT vocabularies and the rest. */
  const ExcludedFromNamespaces: set<string> := ExcludedCatalogTerms + ExcludedAgentTerms + ExcludedOtherTerms

  const ExcludedCatalogTerms: set<string> :=
    NamespaceTerms(RDF, {"type"}) +
    NamespaceTerms(RDF_SCHEMA, {"label"}) +
    NamespaceTerms(DC, {
      "identifier", "format", "language", "license", "type", "issued", "modified", "conformsTo",
      "provenance", "relation", "relations", "hasVersion", "isVersionOf", "isReferencedBy",
      "references", "source", "rights", "creator", "spatial"}) +
    NamespaceTerms(DCAT, {
      "distribution", "downloadURL", "accessURL", "accessService", "servesDataset", "endpointURL",
      "endpointDescription", "mediaType", "byteSize", "compressFormat", "temporalResolution",
      "granularity", "theme", "contactPoint"}) +
    NamespaceTerms(DCATDE, {
      "licenseAttributionByText", "contributorID", "legalBasis", "maintainer", "originator",
      "geocodingDescription", "politicalGeocodingURI", "politicalGeocodingLevelURI",
      "plannedAvailability", "qualityProcessURI"})

  const ExcludedAgentTerms: set<string> :=
    NamespaceTerms(FOAF, {"page", "homepage", "mbox", "name"}) +
    NamespaceTerms(VCARD, {
      "fn", "hasEmail", "hasTelephone", "hasURL", "hasCountryName", "hasLocality", "hasPostalCode",
      "hasStreetAddress"}) +
    NamespaceTerms(ADMS, {"identifier", "status", "versionNotes"}) +
    NamespaceTerms(SPDX, {"checksum"})

  const ExcludedOtherTerms: set<string> :=
    NamespaceTerms(OWL, {"versionInfo"}) +
    NamespaceTerms(SKOS, {"prefLabel"}) +
    NamespaceTerms(LOCN, {"geometry"}) +
    NamespaceTerms(DATAEU, {"hvdCategory", "availability", "applicableLegislation"})

  const DcFormatUri: string := "http://purl.org/dc/terms/format"

  /** The excluded set after the manual `add` of the Dublin Core format URI. */
  const ExcludedPredicateUris: set<string> := ExcludedFromNamespaces + {DcFormatUri}

  /**
   * `DC.format` is not the Dublin Core format URI, so the set built from the namespaces
   * lacks it and the manual addition is what excludes that predicate.
   */
  lemma ManualAddIsNeeded()
    ensures Attr(DC, "format") == BoundStrMethod("format")
    ensures DcFormatUri !in ExcludedFromNamespaces
    ensures DcFormatUri in ExcludedPredicateUris
    ensures ExcludedPredicateUris != ExcludedFromNamespaces
  {
    assert "format" in StrMethodNames;
    CatalogTermsLackDcFormat();
    AgentTermsLackDcFormat();
    OtherTermsLackDcFormat();
  }

  lemma CatalogTermsLackDcFormat()
    ensures DcFormatUri !in ExcludedCatalogTerms
  {
    HostsDiffer();
    NoAttributeIsDcFormat(RDF, {"type"});
    NoAttributeIsDcFormat(RDF_SCHEMA, {"label"});
    DcAttributesAreNotDcFormat({
      "identifier", "format", "language", "license", "type", "issued", "modified", "conformsTo",
      "provenance", "relation", "relations", "hasVersion", "isVersionOf", "isReferencedBy",
      "references", "source", "rights", "creator", "spatial"});
    NoAttributeIsDcFormat(DCAT, {
      "distribution", "downloadURL", "accessURL", "accessService", "servesDataset", "endpointURL",
      "endpointDescription", "mediaType", "byteSize", "compressFormat", "temporalResolution",
      "granularity", "theme", "contactPoint"});
    NoAttributeIsDcFormat(DCATDE, {
      "licenseAttributionByText", "contributorID", "legalBasis", "maintainer", "originator",
      "geocodingDescription", "politicalGeocodingURI", "politicalGeocodingLevelURI",
      "plannedAvailability", "qualityProcessURI"});
  }

  lemma AgentTermsLackDcFormat()
    ensures DcFormatUri !in ExcludedAgentTerms
  {
    HostsDiffer();
    NoAttributeIsDcFormat(FOAF, {"page", "homepage", "mbox", "name"});
    NoAttributeIsDcFormat(VCARD, {
      "fn", "hasEmail", "hasTelephone", "hasURL", "hasCountryName", "hasLocality", "hasPostalCode",
      "hasStreetAddress"});
    NoAttributeIsDcFormat(ADMS, {"identifier", "status", "versionNotes"});
    NoAttributeIsDcFormat(SPDX, {"checksum"});
  }

  lemma OtherTermsLackDcFormat()
    ensures DcFormatUri !in ExcludedOtherTerms
  {
    HostsDiffer();
    NoAttributeIsDcFormat(OWL, {"versionInfo"});
    NoAttributeIsDcFormat(SKOS, {"prefLabel"});
    NoAttributeIsDcFormat(LOCN, {"geometry"});
    NoAttributeIsDcFormat(DATAEU, {"hvdCategory", "availability", "applicableLegislation"});
  }

  /** Every namespace but Dublin Core has another host than the Dublin Core format URI. */
  lemma HostsDiffer()
    ensures forall namespace | namespace in {RDF, RDF_SCHEMA, DCAT, DCATDE, ADMS, SPDX, VCARD, FOAF, SKOS, LOCN, OWL, DATAEU}
              :: |namespace| > 7 && namespace[7] != DcFormatUri[7]
  {
  }

  /**
   * No attribute of a namespace with another host stringifies to the Dublin Core format URI:
   * the text differs from it right after "http://".
   */
  lemma NoAttributeIsDcFormat(namespace: string, names: set<string>)
    requires |namespace| > 7 && namespace[7] != DcFormatUri[7]
    ensures DcFormatUri !in NamespaceTerms(namespace, names)
  {
    forall name | name in names ensures S(namespace, name) != DcFormatUri {
      if name in StrMethodNames {
        assert S(namespace, name)[0] == '<' != DcFormatUri[0];
      } else {
        assert (namespace + name)[7] == namespace[7] != DcFormatUri[7];
      }
    }
  }

  /** In the Dublin Core namespace itself only `format` could spell the URI, and it is a bound method. */
  lemma DcAttributesAreNotDcFormat(names: set<string>)
    ensures DcFormatUri !in NamespaceTerms(DC, names)
  {
    forall name | name in names ensures S(DC, name) != DcFormatUri {
      if name in StrMethodNames {
        assert S(DC, name)[0] == '<' != DcFormatUri[0];
      } else {
        assert name != "format" && DcFormatUri == DC + "format";
        assert (DC + name)[|DC|..] == name;
        assert (DC + "format")[|DC|..] == "format";
      }
    }
  }

  /** An RDF term as returned by the graph; `str()` of each kind is its text. */
  datatype Term = URIRef(uri: string) | Literal(lexical: string) | BNode(id: string)

  function TermStr(t: Term): string {
    match t
    case URIRef(u) => u
    case Literal(l) => l
    case BNode(b) => b
  }

  datatype Triple = Triple(s: Term, p: Term, o: Term)

  /** The `Metadata` record (`subject`, `predicate`, `object`) stored for a kept triple. */
  datatype Metadata = Metadata(subject: string, predicateText: string, objectText: string)

  predicate IsKept(t: Triple, excluded: set<string>) {
    TermStr(t.p) !in excluded
  }

  function ToMetadata(t: Triple): (m: Metadata)
    ensures m.subject == TermStr(t.s) && m.predicateText == TermStr(t.p) && m.objectText == TermStr(t.o)
  {
    Metadata(TermStr(t.s), TermStr(t.p), TermStr(t.o))
  }

  /** The metadata list built from the triples, in their order, dropping excluded predicates. */
  function Filtered(triples: seq<Triple>, excluded: set<string>): (r: seq<Metadata>)
    ensures |r| <= |triples|
  {
    if |triples| == 0 then []
    else
      var last := triples[|triples| - 1];
      Filtered(triples[..|triples| - 1], excluded) + (if IsKept(last, excluded) then [ToMetadata(last)] else [])
  }

  /** The loop of `analyse_metadata` over a given excluded set. */
  method FilterTriples(triples: seq<Triple>, excluded: set<string>) returns (metadata: seq<Metadata>)
    ensures metadata == Filtered(triples, excluded)
  {
    metadata := [];
    for i := 0 to |triples|
      invariant metadata == Filtered(triples[..i], excluded)
    {
      var t := triples[i];
      if TermStr(t.p) !in excluded {
        metadata := metadata + [Metadata(TermStr(t.s), TermStr(t.p), TermStr(t.o))];
      }
      assert triples[..i + 1][..i] == triples[..i];
    }
    assert triples[..|triples|] == triples;
  }

  /**
   * `analyse_metadata` after parsing: the stringified triples, in order, of every triple
   * whose predicate is not in `excluded_predicates_uris`.
   */
  method AnalyseMetadata(triples: seq<Triple>) returns (metadata: seq<Metadata>)
    ensures metadata == Filtered(triples, ExcludedPredicateUris)
  {
    metadata := FilterTriples(triples, ExcludedPredicateUris);
  }

  /** Filtering distributes over concatenation, so kept triples keep their relative order. */
  lemma {:induction false} FilteredAppend(a: seq<Triple>, b: seq<Triple>, excluded: set<string>)
    ensures Filtered(a + b, excluded) == Filtered(a, excluded) + Filtered(b, excluded)
  {
    if |b| > 0 {
      assert (a + b)[..|a + b| - 1] == a + b[..|b| - 1];
      FilteredAppend(a, b[..|b| - 1], excluded);
    } else {
      assert a + b == a;
    }
  }

  /**
   * A record is in the output exactly when some input triple with a non-excluded
   * predicate stringifies to it; so no output record carries an excluded predicate.
   */
  lemma {:induction false} FilteredMembers(triples: seq<Triple>, excluded: set<string>, m: Metadata)
    ensures m in Filtered(triples, excluded) <==>
            exists i :: 0 <= i < |triples| && IsKept(triples[i], excluded) && ToMetadata(triples[i]) == m
    ensures m in Filtered(triples, excluded) ==> m.predicateText !in excluded
  {
    if |triples| > 0 {
      var init := triples[..|triples| - 1];
      FilteredMembers(init, excluded, m);
      if m in Filtered(triples, excluded) && m !in Filtered(init, excluded) {
        assert IsKept(triples[|triples| - 1], excluded) && ToMetadata(triples[|triples| - 1]) == m;
      }
      if exists i :: 0 <= i < |triples| && IsKept(triples[i], excluded) && ToMetadata(triples[i]) == m {
        var i :| 0 <= i < |triples| && IsKept(triples[i], excluded) && ToMetadata(triples[i]) == m;
        if i < |triples| - 1 {
          assert init[i] == triples[i];
        }
      }
    }
  }
}

=== FILE: output_dir.dfy ===
/**
 * The output directory of `utils/pipeline.py`: clearing it before each generation and
 * archiving its PNG images. The directory is an in-memory map from entry name to entry;
 * listing, deleting and copying files are operations on that map.
 */
module OutputDir {
  import opened Wrappers
  import opened Strings

  /** A directory entry: a regular file with its content, or a sub-directory of files. */
  datatype Entry = RegularFile(content: string) | Folder(files: map<string, string>)

  /** `files_to_keep` of `clear_output_dir`. */
  const FilesToKeep: set<string> := {".gitignore", ".gitkeep", "graph.png", "generate_plots.r", "generate_plots.py"}

  /** A name `clear_output_dir` deletes: listed, not kept, and a regular file. */
  predicate Deletable(entries: map<string, Entry>, keep: set<string>, name: string) {
    name in entries && name !in keep && entries[name].RegularFile?
  }

  /**
   * The directory after clearing. `undeletable` names the files whose removal the
   * operating system refuses; those are reported and stay.
   */
  function Cleared(entries: map<string, Entry>, keep: set<string>, undeletable: set<string>): (r: map<string, Entry>)
    ensures r.Keys <= entries.Keys
    ensures forall name :: name in r ==> r[name] == entries[name]
    ensures forall name :: name in entries && name in keep ==> name in r
    ensures forall name :: name in entries && entries[name].Folder? ==> name in r
    ensures forall name :: name in entries ==> (name !in r <==> Deletable(entries, keep, name) && name !in undeletable)
  {
    map name | name in entries && !(Deletable(entries, keep, name) && name !in undeletable) :: entries[name]
  }

  /** The names whose deletion failed and was reported. */
  function DeletionFailures(entries: map<string, Entry>, keep: set<string>, undeletable: set<string>): (r: set<string>)
    ensures forall name :: name in r <==> Deletable(entries, keep, name) && name in undeletable
  {
    set name | name in entries && Deletable(entries, keep, name) && name in undeletable
  }

  /** A PNG image `archive_images` copies: every `.png` except the workflow graph. */
  predicate IsArchivable(name: string) {
    EndsWith(name, ".png") && name != "graph.png"
  }

  function ArchiveName(index: int): string {
    "code_generation_#" + IntToString(index)
  }

  lemma ArchiveNameIsNotArchivable(index: int)
    ensures !IsArchivable(ArchiveName(index))
  {
    var a := ArchiveName(index);
    assert a[|a| - 1] == IntToString(index)[|IntToString(index)| - 1];
  }

  function Archivable(entries: map<string, Entry>): set<string> {
    set name | name in entries && IsArchivable(name)
  }

  /**
   * `archive_images` raises when there is something to archive and either the archive
   * name is taken by a regular file or one of the `.png` entries is a directory.
   */
  predicate ArchiveFails(entries: map<string, Entry>, index: int) {
    && Archivable(entries) != {}
    && ((ArchiveName(index) in entries && entries[ArchiveName(index)].RegularFile?)
        || exists name :: name in Archivable(entries) && entries[name].Folder?)
  }

  /** The files already in the archive directory. */
  function ArchiveFiles(entries: map<string, Entry>, index: int): map<string, string> {
    if ArchiveName(index) in entries && entries[ArchiveName(index)].Folder? then entries[ArchiveName(index)].files
    else map[]
  }

  function Copies(entries: map<string, Entry>, names: set<string>): map<string, string> {
    map name | name in names && name in entries && entries[name].RegularFile? :: entries[name].content
  }

  /** The directory after the images among `done` have been copied into the archive. */
  function ArchivedPart(entries: map<string, Entry>, index: int, done: set<string>): map<string, Entry> {
    var images := Archivable(entries) * done;
    if images == {} then entries
    else entries[ArchiveName(index) := Folder(ArchiveFiles(entries, index) + Copies(entries, images))]
  }

  /**
   * The directory after a successful `archive_images`: originals are untouched, and, only
   * if there is an image, the archive directory holds copies of all of them.
   */
  function Archived(entries: map<string, Entry>, index: int): (r: map<string, Entry>)
    ensures forall name :: name in entries && name != ArchiveName(index) ==> name in r && r[name] == entries[name]
    ensures Archivable(entries) == {} ==> r == entries
    ensures Archivable(entries) != {} ==>
      && r.Keys == entries.Keys + {ArchiveName(index)}
      && r[ArchiveName(index)] == Folder(ArchiveFiles(entries, index) + Copies(entries, Archivable(entries)))
  {
    assert Archivable(entries) * entries.Keys == Archivable(entries);
    ArchivedPart(entries, index, entries.Keys)
  }

  /** Without failure, every image is a regular file and the copies are exactly the images. */
  lemma CopiesAreTheImages(entries: map<string, Entry>, index: int)
    requires !ArchiveFails(entries, index)
    ensures Copies(entries, Archivable(entries)).Keys == Archivable(entries)
    ensures forall name :: name in Archivable(entries) ==>
              entries[name].RegularFile? && Copies(entries, Archivable(entries))[name] == entries[name].content
  {
  }

  /** One more image copied into the archive. */
  lemma ArchivedPartStep(entries: map<string, Entry>, index: int, done: set<string>, name: string)
    requires name in entries && name !in done
    requires IsArchivable(name) && entries[name].RegularFile?
    requires !(ArchiveName(index) in entries && entries[ArchiveName(index)].RegularFile?)
    ensures var before := ArchivedPart(entries, index, done);
            var archive := ArchiveName(index);
            var existing := if archive in before then before[archive].files else map[];
            ArchivedPart(entries, index, done + {name}) == before[archive := Folder(existing[name := entries[name].content])]
  {
    var archive := ArchiveName(index);
    var images := Archivable(entries) * done;
    assert Archivable(entries) * (done + {name}) == images + {name};
    var content := entries[name].content;
    assert Copies(entries, images + {name}) == Copies(entries, images)[name := content];
    var existing := ArchiveFiles(entries, index) + Copies(entries, images);
    assert ArchiveFiles(entries, index) + Copies(entries, images)[name := content] == existing[name := content];
    if images == {} {
      assert Copies(entries, images) == map[];
      assert existing == ArchiveFiles(entries, index);
    }
  }

  /** A name that is not an image changes nothing. */
  lemma ArchivedPartSkip(entries: map<string, Entry>, index: int, done: set<string>, name: string)
    requires !IsArchivable(name)
    ensures ArchivedPart(entries, index, done + {name}) == ArchivedPart(entries, index, done)
  {
    assert Archivable(entries) * (done + {name}) == Archivable(entries) * done;
  }

  /** Copying images changes no entry other than the archive directory. */
  lemma ArchivedPartKeepsOthers(entries: map<string, Entry>, index: int, done: set<string>)
    ensures var r := ArchivedPart(entries, index, done);
            forall name :: name in entries && name != ArchiveName(index) ==> name in r && r[name] == entries[name]
  {
  }

  /** `os.path.join(directory, name)` for a relative `name`: one separator between the parts. */
  function Join(directory: string, name: string): string {
    Separated(directory) + name
  }

  /** The joined path starts with the directory, ends with the name, and adds at most one `/`. */
  lemma JoinParts(directory: string, name: string)
    ensures var path := Join(directory, name);
            && StartsWith(path, directory) && EndsWith(path, name)
            && |directory| + |name| <= |path| <= |directory| + 1 + |name|
  {
  }

  /** The directory path as `os.path.join` extends it: a `/` is added unless empty or present. */
  function Separated(directory: string): string {
    if directory == "" || EndsWith(directory, "/") then directory else directory + "/"
  }

  /** The entry of `directory` that `path` names, when it names one directly. */
  function NameIn(directory: string, path: string): (name: Option<string>)
    ensures name.Some? ==> Join(directory, name.value) == path && name.value != "" && '/' !in name.value
  {
    var prefix := Separated(directory);
    if StartsWith(path, prefix) && |path| > |prefix| && '/' !in path[|prefix|..] then
      Some(path[|prefix|..])
    else
      None
  }

  /** Joining a plain file name to a directory and looking the result up gives the name back. */
  lemma NameInJoin(directory: string, name: string)
    requires name != "" && '/' !in name
    ensures NameIn(directory, Join(directory, name)) == Some(name)
  {
    var prefix := Separated(directory);
    assert Join(directory, name)[|prefix|..] == name;
  }

  class Directory {
    const path: string
    var entries: map<string, Entry>

    constructor (path: string, entries: map<string, Entry>)
      ensures this.path == path && this.entries == entries
    {
      this.path := path;
      this.entries := entries;
    }

    /**
     * `open(<path>/name, "w")` followed by `write(content)`: a directory of that name makes
     * `open` raise; otherwise the file is created or truncated and holds `content`.
     */
    method WriteFile(name: string, content: string) returns (r: Outcome)
      modifies this
      ensures name in old(entries) && old(entries)[name].Folder? ==>
                r == Fail(IsADirectoryError(Join(path, name))) && entries == old(entries)
      ensures !(name in old(entries) && old(entries)[name].Folder?) ==>
                r == Pass && entries == old(entries)[name := RegularFile(content)]
    {
      if name in entries && entries[name].Folder? {
        return Fail(IsADirectoryError(Join(path, name)));
      }
      entries := entries[name := RegularFile(content)];
      r := Pass;
    }

    /**
     * `clear_output_dir`: delete every listed regular file not in `keep`; a failed
     * deletion is reported and the loop goes on with the remaining entries.
     */
    method ClearOutputDir(keep: set<string>, undeletable: set<string>) returns (reported: set<string>)
      modifies this
      ensures entries == Cleared(old(entries), keep, undeletable)
      ensures reported == DeletionFailures(old(entries), keep, undeletable)
    {
      var listing := entries.Keys;
      ghost var original := entries;
      reported := {};
      while listing != {}
        invariant listing <= original.Keys
        invariant entries.Keys <= original.Keys
        invariant forall name :: name in entries ==> entries[name] == original[name]
        invariant forall name :: name in listing ==> name in entries
        invariant forall name :: name in original && name !in listing ==>
                    (name !in entries <==> Deletable(original, keep, name) && name !in undeletable)
        invariant forall name :: name in reported <==>
                    name in original && name !in listing && Deletable(original, keep, name) && name in undeletable
        decreases listing
      {
        var name :| name in listing;
        listing := listing - {name};
        if name !in keep {
          if entries[name].RegularFile? {
            if name in undeletable {
              reported := reported + {name};
            } else {
              entries := entries - {name};
            }
          }
        }
      }
    }

    /**
     * `archive_images`: copy each `.png` other than `graph.png` into
     * `code_generation_#<index>`, creating that directory on the first image.
     */
    method ArchiveImages(index: int) returns (r: Outcome)
      modifies this
      ensures r.Pass? <==> !ArchiveFails(old(entries), index)
      ensures r.Pass? ==> entries == Archived(old(entries), index)
      ensures forall name :: name in old(entries) && name != ArchiveName(index) ==>
                name in entries && entries[name] == old(entries)[name]
    {
      var files := entries.Keys;
      ghost var original := entries;
      var dir := entries;
      var archive := ArchiveName(index);
      ArchiveNameIsNotArchivable(index);
      var listing := files;
      while listing != {}
        invariant listing <= files == original.Keys
        invariant dir == ArchivedPart(original, index, files - listing)
        invariant forall name :: name in original && IsArchivable(name) && name !in listing ==> original[name].RegularFile?
        invariant Archivable(original) * (files - listing) != {} ==>
                    !(archive in original && original[archive].RegularFile?)
        decreases listing
      {
        var name :| name in listing;
        ghost var done := files - listing;
        listing := listing - {name};
        assert files - listing == done + {name};
        if EndsWith(name, ".png") && name != "graph.png" {
          assert name in Archivable(original);
          if archive in dir && dir[archive].RegularFile? {
            assert Archivable(original) * done == {};
            r := Fail(FileExistsError(archive));
            entries := dir;
            return;
          }
          var existing := if archive in dir then dir[archive].files else map[];
          var source := dir[name];
          if source.Folder? {
            assert original[name].Folder?;
            ArchivedPartKeepsOthers(original, index, done);
            r := Fail(IsADirectoryError(name));
            entries := dir[archive := Folder(existing)];
            return;
          }
          ArchivedPartStep(original, index, done, name);
          dir := dir[archive := Folder(existing[name := source.content])];
          assert name in Archivable(original) * (done + {name});
        } else {
          ArchivedPartSkip(original, index, done, name);
        }
      }
      assert files - listing == original.Keys;
      ArchivedPartKeepsOthers(original, index, original.Keys);
      entries := dir;
      r := Pass;
    }
  }
}

=== FILE: pipeline_utils.dfy ===
/**
 * `generate_and_write_code` of `pipeline/utils.py`: ask the code agent for a script,
 * write it next to the plots in the output directory and record the answer in the state.
 */
module PipelineUtils {
  import opened Wrappers
  import opened Strings
  import opened Enums
  import opened Messages
  import opened OutputDir
  import opened State

  const ScriptFileName: string := "generated_plots"

  /** `generated_plots.<extension>`, the script's name inside the output directory. */
  function ScriptName(language: ProgrammingLanguage): (name: string)
    ensures name != "" && '/' !in name
    ensures StartsWith(name, ScriptFileName + ".") && EndsWith(name, "." + language.Value())
  {
    ScriptFileName + "." + language.Value()
  }

  /** Different languages give different script names. */
  lemma ScriptNamesDiffer(a: ProgrammingLanguage, b: ProgrammingLanguage)
    requires a != b
    ensures ScriptName(a) != ScriptName(b)
  {
    assert |ScriptName(a)| != |ScriptName(b)|;
  }

  /**
   * The keep-list of `clear_output_dir` names `generate_plots.<extension>`, not the script's
   * `generated_plots.<extension>`: clearing deletes a previously written script whenever the
   * operating system lets it. Every node that clears writes a new script afterwards.
   */
  lemma ClearingDeletesTheScript(language: ProgrammingLanguage, entries: map<string, Entry>, undeletable: set<string>)
    ensures ScriptName(language) !in FilesToKeep
    ensures var name := ScriptName(language);
            (name in entries && entries[name].RegularFile? && name !in undeletable)
              ==> name !in Cleared(entries, FilesToKeep, undeletable)
  {
    var name := ScriptName(language);
    assert name[8] == 'd';
    assert forall kept :: kept in FilesToKeep ==> |kept| <= 8 || kept[8] != 'd';
  }

  /** What a node leaves behind: its outcome, the state's fields and the output directory. */
  datatype Effect = Effect(outcome: Outcome, fields: Fields, entries: map<string, Entry>)

  /**
   * The effect of writing the agent's answer `response` as the script: `script_path` is
   * always set; a directory in the script's place makes `open` raise before anything else
   * happens; otherwise `code`, the file and `messages` are replaced, and the metadata of the
   * answer's last message is appended (an empty or invalid answer raises after the rest).
   */
  function Generated(before: Fields, entries: map<string, Entry>, outputPath: string,
                     response: AgentResponse<Code>, callingMethodName: string): (e: Effect)
    ensures e.fields.scriptPath == Some(Join(outputPath, ScriptName(before.programmingLanguage)))
  {
    var name := ScriptName(before.programmingLanguage);
    var path := Join(outputPath, name);
    var withPath := before.(scriptPath := Some(path));
    if name in entries && entries[name].Folder? then
      Effect(Fail(IsADirectoryError(path)), withPath, entries)
    else
      var written := withPath.(code := Some(response.structured), messages := response.messages);
      var files := entries[name := RegularFile(response.structured.code)];
      var metadata := MetadataOfLast(response.messages, callingMethodName);
      if metadata.Err? then Effect(Fail(metadata.error), written, files)
      else Effect(Pass, written.(llmMetadata := before.llmMetadata + [metadata.value]), files)
  }

  /** The recorded script path names the script inside the output directory. */
  lemma ScriptPathIsInOutput(before: Fields, entries: map<string, Entry>, outputPath: string,
                             response: AgentResponse<Code>, callingMethodName: string)
    ensures var e := Generated(before, entries, outputPath, response, callingMethodName);
            NameIn(outputPath, e.fields.scriptPath.value) == Some(ScriptName(before.programmingLanguage))
  {
    NameInJoin(outputPath, ScriptName(before.programmingLanguage));
  }

  /** Only a directory in the script's place makes the write fail before anything is recorded. */
  lemma GeneratedFailsOnlyOnDirectory(before: Fields, entries: map<string, Entry>, outputPath: string,
                                      response: AgentResponse<Code>, callingMethodName: string)
    ensures var e := Generated(before, entries, outputPath, response, callingMethodName);
            var name := ScriptName(before.programmingLanguage);
            && (e.outcome == Fail(IsADirectoryError(Join(outputPath, name))) <==> name in entries && entries[name].Folder?)
            && (e.outcome.Fail? ==> e.fields.llmMetadata == before.llmMetadata)
            && (e.outcome.Pass? <==>
                  !(name in entries && entries[name].Folder?) && MetadataOfLast(response.messages, callingMethodName).Ok?)
  {
  }

  /**
   * On success the script file holds the answer's code, `code` and `messages` are the
   * answer's, and exactly one metadata entry, tagged with the caller's name, is appended.
   */
  lemma GeneratedRecordsTheAnswer(before: Fields, entries: map<string, Entry>, outputPath: string,
                                  response: AgentResponse<Code>, callingMethodName: string)
    ensures var e := Generated(before, entries, outputPath, response, callingMethodName);
            var name := ScriptName(before.programmingLanguage);
            e.outcome.Pass? ==>
              && name in e.entries && e.entries[name] == RegularFile(response.structured.code)
              && e.fields.code == Some(response.structured)
              && e.fields.messages == response.messages
              && |e.fields.llmMetadata| == |before.llmMetadata| + 1
              && e.fields.llmMetadata[..|before.llmMetadata|] == before.llmMetadata
              && e.fields.llmMetadata[|before.llmMetadata|].methodName == callingMethodName
  {
  }

  /** No field other than the four it records, and no other file, is touched. */
  lemma GeneratedTouchesNothingElse(before: Fields, entries: map<string, Entry>, outputPath: string,
                                    response: AgentResponse<Code>, callingMethodName: string)
    ensures var e := Generated(before, entries, outputPath, response, callingMethodName);
            var name := ScriptName(before.programmingLanguage);
            && e.fields.(scriptPath := before.scriptPath, code := before.code, messages := before.messages,
                         llmMetadata := before.llmMetadata) == before
            && (forall other :: other != name ==> (other in e.entries <==> other in entries))
            && (forall other :: other in entries && other != name ==> e.entries[other] == entries[other])
  {
  }

  /** The node, with the effect above. */
  method GenerateAndWriteCode(state: AgentState, agent: seq<Message> -> AgentResponse<Code>,
                              messages: seq<Message>, callingMethodName: string) returns (r: Outcome)
    modifies state, state.output
    ensures Effect(r, state.Snapshot(), state.output.entries)
              == Generated(old(state.Snapshot()), old(state.output.entries), state.output.path,
                           agent(messages), callingMethodName)
  {
    ghost var before := state.Snapshot();
    var response := agent(messages);
    var name := ScriptName(state.programmingLanguage);
    var path := Join(state.output.path, name);
    state.scriptPath := Some(path);
    assert state.Snapshot() == before.(scriptPath := Some(path));
    var written := state.output.WriteFile(name, response.structured.code);
    if written.Fail? {
      return written;
    }
    state.code := Some(response.structured);
    state.messages := response.messages;
    ghost var after := before.(scriptPath := Some(path), code := Some(response.structured), messages := response.messages);
    assert state.Snapshot() == after;
    var metadata := MetadataOfLast(response.messages, callingMethodName);
    if metadata.Err? {
      return Fail(metadata.error);
    }
    state.llmMetadata := state.llmMetadata + [metadata.value];
    assert state.Snapshot() == after.(llmMetadata := before.llmMetadata + [metadata.value]);
    r := Pass;
  }
}

=== FILE: prompt.dfy ===
/** The two-language prompt table of `language/prompt.py`. */
module PromptTable {
  import opened Wrappers
  import opened Enums

  /**
   * A prompt: one template table per language. `str.format` is outside the model; it
   * is passed to `GetPrompt` as a function from the template to the formatted text.
   */
  datatype Prompt = Prompt(de: map<string, string>, en: map<string, string>)

  /** `dict.get(key, "")` */
  function Lookup(table: map<string, string>, key: string): string {
    if key in table then table[key] else ""
  }

  function NotFound(key: string, language: string): Error {
    ValueError("Prompt for key '" + key + "' not found in language '" + language + "'.")
  }

  /**
   * The text a language compares by and formats as: `Language` is a string enumeration, so a
   * member compares equal to its value and a plain string to itself.
   */
  function LanguageText(language: Tagged<Language>): string {
    if language.Member? then language.member.Value() else language.text
  }

  /**
   * `Prompt.get_prompt`: the formatted template of the requested language; a missing or
   * empty template raises "not found", a language whose text is neither "de" nor "en"
   * raises "Unsupported language". A plain "de" or "en" takes the branch of its member.
   */
  function GetPrompt(p: Prompt, language: Tagged<Language>, key: string, format: string -> string): (r: Result<string>)
    ensures var value := LanguageText(language);
            value == DE.Value() && key in p.de && p.de[key] != "" ==> r == Ok(format(p.de[key]))
    ensures var value := LanguageText(language);
            value == EN.Value() && key in p.en && p.en[key] != "" ==> r == Ok(format(p.en[key]))
    ensures var value := LanguageText(language);
            value == DE.Value() && (key !in p.de || p.de[key] == "") ==> r == Err(NotFound(key, "de"))
    ensures var value := LanguageText(language);
            value == EN.Value() && (key !in p.en || p.en[key] == "") ==> r == Err(NotFound(key, "en"))
    ensures var value := LanguageText(language);
            value !in {DE.Value(), EN.Value()} ==> r == Err(ValueError("Unsupported language: " + value))
  {
    var value := LanguageText(language);
    if value == DE.Value() then
      var template := Lookup(p.de, key);
      if template != "" then Ok(format(template)) else Err(NotFound(key, value))
    else if value == EN.Value() then
      var template := Lookup(p.en, key);
      if template != "" then Ok(format(template)) else Err(NotFound(key, value))
    else Err(ValueError("Unsupported language: " + value))
  }

  /** A plain "de" or "en" is looked up exactly as the member with that value. */
  lemma PlainTextIsTheMember(p: Prompt, language: Language, key: string, format: string -> string)
    ensures GetPrompt(p, NotAMember(language.Value()), key, format) == GetPrompt(p, Member(language), key, format)
  {
  }

  /** The English table is never consulted for German, nor the German one for English. */
  lemma TablesAreIndependent(de: map<string, string>, de': map<string, string>,
                             en: map<string, string>, en': map<string, string>,
                             language: Tagged<Language>, key: string, format: string -> string)
    ensures LanguageText(language) == DE.Value() ==>
              GetPrompt(Prompt(de, en), language, key, format) == GetPrompt(Prompt(de, en'), language, key, format)
    ensures LanguageText(language) == EN.Value() ==>
              GetPrompt(Prompt(de, en), language, key, format) == GetPrompt(Prompt(de', en), language, key, format)
  {
  }

  /** A successful lookup never returns a formatted empty template, and needs the text "de" or "en". */
  lemma OkMeansNonEmptyTemplate(p: Prompt, language: Tagged<Language>, key: string, format: string -> string)
    requires GetPrompt(p, language, key, format).Ok?
    ensures LanguageText(language) == DE.Value() ==> key in p.de && p.de[key] != ""
    ensures LanguageText(language) == EN.Value() ==> key in p.en && p.en[key] != ""
    ensures LanguageText(language) in {DE.Value(), EN.Value()}
  {
  }
}

=== FILE: refactor_code.dfy ===
/**
 * `llm_refactor_plots` of `pipeline/llm_operations/refactor_code.py`: have the script
 * rewritten from the judge's remarks, and restart the regeneration budget for the rewrite.
 */
module RefactorCode {
  import opened Wrappers
  import opened Messages
  import opened OutputDir
  import opened State
  import opened PipelineUtils

  const LlmRefactorPlotsName: string := "llm_refactor_plots"

  /** `str(state.get("judge_messages", []))`: the judge's remarks as text, `[]` when absent. */
  function JudgeMessagesText(fields: Fields): string {
    if fields.judgeMessages.Some? then fields.judgeMessages.value else "[]"
  }

  /**
   * The node's effect, in the source's order: without `code` the request cannot be built
   * (`KeyError`); otherwise `code` is replaced by the answer, the counter is reset, the
   * refactoring flag is set, the metadata is appended, and the new code is written to
   * `script_path` (`KeyError` without one; a directory there makes `open` raise). A script
   * path outside the output directory is written where this model does not look.
   */
  function Refactored(before: Fields, entries: map<string, Entry>, outputPath: string,
                      agent: seq<Message> -> AgentResponse<Code>): (e: Effect)
  {
    if before.code.None? then Effect(Fail(KeyError("code")), before, entries)
    else
      var request := HumanMessage(RefactorPrompt(before.code.value.code, JudgeMessagesText(before)));
      var response := agent([request]);
      var rewritten := before.(code := Some(response.structured), regenerationAttempts := 0, isRefactoring := true);
      var metadata := MetadataOfLast(response.messages, LlmRefactorPlotsName);
      if metadata.Err? then Effect(Fail(metadata.error), rewritten, entries)
      else
        var recorded := rewritten.(llmMetadata := before.llmMetadata + [metadata.value]);
        if before.scriptPath.None? then Effect(Fail(KeyError("script_path")), recorded, entries)
        else
          var name := NameIn(outputPath, before.scriptPath.value);
          if name.None? then Effect(Pass, recorded, entries)
          else if name.value in entries && entries[name.value].Folder? then
            Effect(Fail(IsADirectoryError(Join(outputPath, name.value))), recorded, entries)
          else Effect(Pass, recorded, entries[name.value := RegularFile(response.structured.code)])
  }

  /**
   * Once the request could be built, the answer replaces `code` wholesale, the counter is 0
   * and the flag is set, whatever happens afterwards; messages and the script path are kept.
   */
  lemma RefactorRestartsTheBudget(before: Fields, entries: map<string, Entry>, outputPath: string,
                                  agent: seq<Message> -> AgentResponse<Code>)
    requires before.code.Some?
    ensures var e := Refactored(before, entries, outputPath, agent);
            var request := HumanMessage(RefactorPrompt(before.code.value.code, JudgeMessagesText(before)));
            && e.fields.code == Some(agent([request]).structured)
            && e.fields.regenerationAttempts == 0
            && e.fields.isRefactoring
            && e.fields.messages == before.messages
            && e.fields.scriptPath == before.scriptPath
  {
  }

  /** Without `code` the node raises before changing anything. */
  lemma RefactorNeedsCode(before: Fields, entries: map<string, Entry>, outputPath: string,
                          agent: seq<Message> -> AgentResponse<Code>)
    requires before.code.None?
    ensures Refactored(before, entries, outputPath, agent) == Effect(Fail(KeyError("code")), before, entries)
  {
  }

  /**
   * On success exactly one metadata entry is appended, and a script inside the output
   * directory holds the new code.
   */
  lemma RefactorWritesTheNewCode(before: Fields, entries: map<string, Entry>, outputPath: string,
                                 agent: seq<Message> -> AgentResponse<Code>)
    ensures var e := Refactored(before, entries, outputPath, agent);
            e.outcome.Pass? ==>
              && before.code.Some? && before.scriptPath.Some?
              && |e.fields.llmMetadata| == |before.llmMetadata| + 1
              && e.fields.llmMetadata[..|before.llmMetadata|] == before.llmMetadata
              && e.fields.llmMetadata[|before.llmMetadata|].methodName == LlmRefactorPlotsName
              && (NameIn(outputPath, before.scriptPath.value).Some? ==>
                    var name := NameIn(outputPath, before.scriptPath.value).value;
                    name in e.entries && e.entries[name] == RegularFile(e.fields.code.value.code))
  {
  }

  /** The node. */
  method LlmRefactorPlots(state: AgentState, agent: seq<Message> -> AgentResponse<Code>) returns (r: Outcome)
    modifies state, state.output
    ensures Effect(r, state.Snapshot(), state.output.entries)
              == Refactored(old(state.Snapshot()), old(state.output.entries), state.output.path, agent)
  {
    if state.code.None? {
      return Fail(KeyError("code"));
    }
    var instructions := HumanMessage(RefactorPrompt(state.code.value.code, JudgeMessagesText(state.Snapshot())));
    var response := agent([instructions]);
    var code := response.structured;
    state.code := Some(code);
    state.regenerationAttempts := 0;
    state.isRefactoring := true;
    var metadata := MetadataOfLast(response.messages, LlmRefactorPlotsName);
    if metadata.Err? {
      return Fail(metadata.error);
    }
    state.llmMetadata := state.llmMetadata + [metadata.value];
    if state.scriptPath.None? {
      return Fail(KeyError("script_path"));
    }
    var name := NameIn(state.output.path, state.scriptPath.value);
    if name.Some? {
      r := state.output.WriteFile(name.value, code.code);
    } else {
      r := Pass;
    }
  }
}

=== FILE: statistics.dfy ===
/**
 * The VER (visualization error rate) part of `print_statistics` in
 * `pipeline/statistics.py`: for each generation attempt, count how many visualizations
 * produced no, exactly one, or several images, and report the counts with their ratios as
 * numerator and denominator.
 */
module Statistics {
  import opened Wrappers
  import opened Strings

  /** A visualization's VER results, keyed by the attempt number as text; a value may be `None`. */
  datatype VerVisualization = VerVisualization(verValues: map<string, Option<int>>)

  /** `VER_values.get(key)`: `None` when the key is absent or holds `None`. */
  function VerValue(v: VerVisualization, key: string): Option<int> {
    if key in v.verValues then v.verValues[key] else None
  }

  /** The counters of one attempt, and whether the scan stopped at a visualization without a value. */
  datatype Tally = Tally(none: nat, one: nat, multiple: nat, stopped: bool) {
    function Total(): nat {
      none + one + multiple
    }

    /** `max(1, no_vis + one_vis + multiple_vis)` */
    function Denominator(): (d: nat)
      ensures d >= 1 && d >= Total()
    {
      if Total() < 1 then 1 else Total()
    }
  }

  const InvalidVer: Error := ValueError("Invalid VER result value. Values must be positive integers.")

  /** The number of leading visualizations that have a value for `key`. */
  function CountedPrefix(vis: seq<VerVisualization>, key: string): (n: nat)
    ensures n <= |vis|
    ensures forall i :: 0 <= i < n ==> VerValue(vis[i], key).Some?
    ensures n < |vis| ==> VerValue(vis[n], key).None?
  {
    if vis == [] || VerValue(vis[0], key).None? then 0
    else
      var rest := CountedPrefix(vis[1..], key);
      assert forall i :: 1 <= i < 1 + rest ==> vis[i] == vis[1..][i - 1];
      1 + rest
  }

  /** `tally` with `ver` counted in its bucket: 0 is none, 1 is exactly one, 2 or more is several. */
  function Count(tally: Tally, ver: nat): Tally {
    if ver == 0 then tally.(none := tally.none + 1)
    else if ver == 1 then tally.(one := tally.one + 1)
    else tally.(multiple := tally.multiple + 1)
  }

  /** Each value lands in exactly one bucket, and the stop flag is kept. */
  lemma CountBuckets(tally: Tally, ver: nat)
    ensures var r := Count(tally, ver);
            && r.Total() == tally.Total() + 1 && r.stopped == tally.stopped
            && (r.none == tally.none + 1 <==> ver == 0)
            && (r.one == tally.one + 1 <==> ver == 1)
            && (r.multiple == tally.multiple + 1 <==> ver >= 2)
  {
  }

  /** `tally` added to the counts of the visualizations still to be scanned. */
  function Shift(tally: Tally, rest: Result<Tally>): Result<Tally> {
    if rest.Err? then rest
    else Ok(Tally(tally.none + rest.value.none, tally.one + rest.value.one,
                  tally.multiple + rest.value.multiple, rest.value.stopped))
  }

  /**
   * The inner loop of one attempt, as a specification: scan until the first visualization
   * without a value; a negative value met on the way raises. What is counted is exactly the
   * leading visualizations that have a value, and the scan stops early exactly when one lacks it.
   */
  function TallyOf(vis: seq<VerVisualization>, key: string): (r: Result<Tally>)
    ensures r.Ok? ==> (r.value.stopped <==> CountedPrefix(vis, key) < |vis|)
    ensures r.Err? ==> r == Err(InvalidVer)
  {
    if vis == [] then Ok(Tally(0, 0, 0, false))
    else
      var ver := VerValue(vis[0], key);
      if ver.None? then Ok(Tally(0, 0, 0, true))
      else if ver.value < 0 then Err(InvalidVer)
      else
        var rest := TallyOf(vis[1..], key);
        if rest.Err? then rest else Ok(Count(rest.value, ver.value))
  }

  /** What is counted is exactly the leading visualizations that have a value. */
  lemma {:induction false} TallyCountsThePrefix(vis: seq<VerVisualization>, key: string)
    ensures TallyOf(vis, key).Ok? ==> TallyOf(vis, key).value.Total() == CountedPrefix(vis, key) <= |vis|
  {
    if vis != [] && VerValue(vis[0], key).Some? && VerValue(vis[0], key).value >= 0 {
      TallyCountsThePrefix(vis[1..], key);
      TallyCountsOneMore(vis, key);
    }
  }

  /** Counting a visualization with a value adds one to the tally of the rest, and to the prefix. */
  lemma TallyCountsOneMore(vis: seq<VerVisualization>, key: string)
    requires vis != [] && VerValue(vis[0], key).Some? && VerValue(vis[0], key).value >= 0
    requires TallyOf(vis[1..], key).Ok? ==> TallyOf(vis[1..], key).value.Total() == CountedPrefix(vis[1..], key)
    ensures TallyOf(vis, key).Ok? ==> TallyOf(vis, key).value.Total() == CountedPrefix(vis, key)
  {
    var rest := TallyOf(vis[1..], key);
    ScanHead(vis, key);
    if rest.Ok? {
      CountBuckets(rest.value, VerValue(vis[0], key).value);
    }
  }

  /** One step of the scan and of the prefix, for a first visualization with a valid value. */
  lemma ScanHead(vis: seq<VerVisualization>, key: string)
    requires vis != [] && VerValue(vis[0], key).Some? && VerValue(vis[0], key).value >= 0
    ensures CountedPrefix(vis, key) == 1 + CountedPrefix(vis[1..], key)
    ensures var rest := TallyOf(vis[1..], key);
            TallyOf(vis, key) == if rest.Err? then rest else Ok(Count(rest.value, VerValue(vis[0], key).value))
  {
  }

  /** The scan raises exactly when a counted visualization holds a negative value. */
  lemma {:induction false} TallyFailsOnNegative(vis: seq<VerVisualization>, key: string)
    ensures TallyOf(vis, key).Err? <==>
              exists i :: 0 <= i < CountedPrefix(vis, key) && VerValue(vis[i], key).Some? && VerValue(vis[i], key).value < 0
  {
    if vis != [] && VerValue(vis[0], key).Some? && VerValue(vis[0], key).value >= 0 {
      var tail := vis[1..];
      TallyFailsOnNegative(tail, key);
      if TallyOf(vis, key).Err? {
        var j :| 0 <= j < CountedPrefix(tail, key) && VerValue(tail[j], key).Some? && VerValue(tail[j], key).value < 0;
        assert tail[j] == vis[j + 1];
      }
      if exists i :: 0 <= i < CountedPrefix(vis, key) && VerValue(vis[i], key).Some? && VerValue(vis[i], key).value < 0 {
        var i :| 0 <= i < CountedPrefix(vis, key) && VerValue(vis[i], key).Some? && VerValue(vis[i], key).value < 0;
        assert i != 0;
        assert tail[i - 1] == vis[i];
      }
    }
  }

  /** A line of the VER report; the percentages are rendered from the numerator and denominator. */
  datatype VerLine =
    | Title
    | Rule
    | Blank
    | AlreadyDone(attempt: nat)
    | AttemptHeader(attempt: nat)
    | NoVisualization(count: nat)
    | ExactlyOne(numerator: nat, denominator: nat)
    | OneOrMore(numerator: nat, denominator: nat)

  /** The lines of one attempt: the note of an early stop, then the four lines of the counts. */
  function Block(attempt: nat, tally: Tally): seq<VerLine> {
    (if tally.stopped then [AlreadyDone(attempt)] else [])
    + [AttemptHeader(attempt), NoVisualization(tally.none),
       ExactlyOne(tally.one, tally.Denominator()), OneOrMore(tally.one + tally.multiple, tally.Denominator())]
  }

  /**
   * A block has four lines, after the note of an early stop when there was one; both ratios
   * share a denominator of at least 1, and exactly one never exceeds one or more.
   */
  lemma BlockShape(attempt: nat, tally: Tally)
    ensures var lines := Block(attempt, tally);
            && |lines| == (if tally.stopped then 5 else 4)
            && (tally.stopped ==> lines[0] == AlreadyDone(attempt))
            && lines[|lines| - 4] == AttemptHeader(attempt)
            && lines[|lines| - 3] == NoVisualization(tally.none)
            && var exactlyOne := lines[|lines| - 2];
               var oneOrMore := lines[|lines| - 1];
               && exactlyOne.ExactlyOne? && oneOrMore.OneOrMore?
               && exactlyOne.denominator >= 1 && exactlyOne.denominator == oneOrMore.denominator
               && exactlyOne.numerator <= oneOrMore.numerator
               && tally.none + oneOrMore.numerator <= exactlyOne.denominator
  {
  }

  /** The blocks of attempts `0 .. attempts - 1`; the first attempt that raises ends the report. */
  function Blocks(vis: seq<VerVisualization>, attempts: nat): Result<seq<VerLine>> {
    if attempts == 0 then Ok([])
    else
      var previous := Blocks(vis, attempts - 1);
      if previous.Err? then previous
      else
        var tally := TallyOf(vis, NatToString(attempts - 1));
        if tally.Err? then Err(tally.error)
        else Ok(previous.value + Block(attempts - 1, tally.value))
  }

  /** Four or five lines per attempt. */
  lemma {:induction false} BlocksLength(vis: seq<VerVisualization>, attempts: nat)
    ensures Blocks(vis, attempts).Ok? ==> 4 * attempts <= |Blocks(vis, attempts).value| <= 5 * attempts
  {
    if attempts == 0 {
      assert Blocks(vis, 0) == Ok([]);
    } else if Blocks(vis, attempts).Ok? {
      var previous := Blocks(vis, attempts - 1);
      var tally := TallyOf(vis, NatToString(attempts - 1));
      assert previous.Ok? && tally.Ok?;
      var block := Block(attempts - 1, tally.value);
      assert Blocks(vis, attempts).value == previous.value + block;
      BlocksLength(vis, attempts - 1);
      BlockShape(attempts - 1, tally.value);
      assert 4 <= |block| <= 5;
      assert |Blocks(vis, attempts).value| == |previous.value| + |block|;
      assert 4 * (attempts - 1) <= |previous.value| <= 5 * (attempts - 1);
    }
  }

  /** A report that did not raise is the previous attempts' blocks followed by this attempt's. */
  lemma BlocksStep(vis: seq<VerVisualization>, attempts: nat)
    requires attempts > 0 && Blocks(vis, attempts).Ok?
    ensures var tally := TallyOf(vis, NatToString(attempts - 1));
            && Blocks(vis, attempts - 1).Ok? && tally.Ok?
            && Blocks(vis, attempts).value == Blocks(vis, attempts - 1).value + Block(attempts - 1, tally.value)
  {
  }

  /** Every attempt gets its block, whether or not its scan stopped early. */
  lemma {:induction false} EveryAttemptHasABlock(vis: seq<VerVisualization>, attempts: nat, a: nat)
    requires Blocks(vis, attempts).Ok? && a < attempts
    ensures AttemptHeader(a) in Blocks(vis, attempts).value
  {
    BlocksStep(vis, attempts);
    var previous := Blocks(vis, attempts - 1).value;
    var block := Block(attempts - 1, TallyOf(vis, NatToString(attempts - 1)).value);
    if a < attempts - 1 {
      EveryAttemptHasABlock(vis, attempts - 1, a);
      assert AttemptHeader(a) in previous;
    } else {
      BlockShape(a, TallyOf(vis, NatToString(a)).value);
      assert block[|block| - 4] == AttemptHeader(a);
    }
  }

  /** The whole VER report for `MAX_REGENERATION_ATTEMPTS` attempts. */
  function VerReport(vis: seq<VerVisualization>, max: int): Result<seq<VerLine>> {
    var attempts := if max < 0 then 0 else max;
    match Blocks(vis, attempts)
    case Err(e) => Err(e)
    case Ok(blocks) => Ok([Title, Rule, Blank] + blocks + [Rule])
  }

  /** Scanning one more visualization with a value adds it to the tally of the rest. */
  lemma ScanStep(vis: seq<VerVisualization>, key: string, i: int, tally: Tally)
    requires 0 <= i < |vis| && VerValue(vis[i], key).Some? && VerValue(vis[i], key).value >= 0
    ensures Shift(tally, TallyOf(vis[i..], key))
              == Shift(Count(tally, VerValue(vis[i], key).value), TallyOf(vis[i + 1..], key))
  {
    assert vis[i..][1..] == vis[i + 1..];
  }

  /** Once an attempt raises, the report raises with the same error. */
  lemma {:induction false} ErrorEndsTheReport(vis: seq<VerVisualization>, failed: nat, attempts: nat)
    requires failed <= attempts && Blocks(vis, failed).Err?
    ensures Blocks(vis, attempts) == Blocks(vis, failed)
    decreases attempts
  {
    if attempts > failed {
      ErrorEndsTheReport(vis, failed, attempts - 1);
    }
  }

  /** The inner loop of `print_statistics` for one attempt; `break` ends the scan. */
  method CountAttempt(vis: seq<VerVisualization>, key: string) returns (r: Result<Tally>)
    ensures r == TallyOf(vis, key)
  {
    var none, one, multiple := 0, 0, 0;
    var i := 0;
    while i < |vis|
      invariant 0 <= i <= |vis|
      invariant TallyOf(vis, key) == Shift(Tally(none, one, multiple, false), TallyOf(vis[i..], key))
    {
      var ver := VerValue(vis[i], key);
      if ver.None? {
        assert TallyOf(vis[i..], key) == Ok(Tally(0, 0, 0, true));
        return Ok(Tally(none, one, multiple, true));
      }
      if ver.value < 0 {
        assert TallyOf(vis[i..], key) == Err(InvalidVer);
        return Err(InvalidVer);
      }
      ScanStep(vis, key, i, Tally(none, one, multiple, false));
      if ver.value == 0 {
        none := none + 1;
      } else if ver.value == 1 {
        one := one + 1;
      } else {
        multiple := multiple + 1;
      }
      i := i + 1;
    }
    assert vis[i..] == [];
    r := Ok(Tally(none, one, multiple, false));
  }

  /** The outer loop of `print_statistics` that builds the VER lines, one block per attempt. */
  method VerStatistics(vis: seq<VerVisualization>, max: int) returns (r: Result<seq<VerLine>>)
    ensures r == VerReport(vis, max)
  {
    var attempts: nat := if max < 0 then 0 else max;
    var lines := [Title, Rule, Blank];
    var attempt: nat := 0;
    while attempt < attempts
      invariant attempt <= attempts
      invariant Blocks(vis, attempt).Ok? && lines == [Title, Rule, Blank] + Blocks(vis, attempt).value
    {
      var tally := CountAttempt(vis, NatToString(attempt));
      if tally.Err? {
        assert Blocks(vis, attempt + 1) == Err(tally.error);
        ErrorEndsTheReport(vis, attempt + 1, attempts);
        return Err(tally.error);
      }
      assert Blocks(vis, attempt + 1) == Ok(Blocks(vis, attempt).value + Block(attempt, tally.value));
      lines := lines + Block(attempt, tally.value);
      attempt := attempt + 1;
    }
    r := Ok(lines + [Rule]);
  }
}

=== FILE: strings.dfy ===
/** The handful of Python `str` operations the core relies on, over `seq<char>`. */
module Strings {
  import opened Wrappers

  predicate StartsWith(s: string, prefix: string) {
    |prefix| <= |s| && s[..|prefix|] == prefix
  }

  predicate EndsWith(s: string, suffix: string) {
    |suffix| <= |s| && s[|s| - |suffix|..] == suffix
  }

  /** `str.lower` restricted to ASCII: upper-case Latin letters become lower-case. */
  function LowerChar(c: char): (r: char)
    ensures 'A' <= c <= 'Z' ==> 'a' <= r <= 'z'
    ensures !('A' <= c <= 'Z') ==> r == c
  {
    if 'A' <= c <= 'Z' then (c as int - 'A' as int + 'a' as int) as char else c
  }

  function Lower(s: string): (r: string)
    ensures |r| == |s|
    ensures forall i :: 0 <= i < |s| ==> r[i] == LowerChar(s[i])
  {
    seq(|s|, i requires 0 <= i < |s| => LowerChar(s[i]))
  }

  predicate IsDigit(c: char) {
    '0' <= c <= '9'
  }

  function DigitChar(d: nat): (c: char)
    requires d < 10
    ensures IsDigit(c)
  {
    ('0' as int + d) as char
  }

  function DigitValue(c: char): (d: nat)
    requires IsDigit(c)
    ensures d < 10
  {
    c as int - '0' as int
  }

  /** `str(n)` for a non-negative integer: its decimal digits, most significant first. */
  function NatToString(n: nat): (s: string)
    ensures |s| > 0
    ensures forall i :: 0 <= i < |s| ==> IsDigit(s[i])
  {
    if n < 10 then [DigitChar(n)] else NatToString(n / 10) + [DigitChar(n % 10)]
  }

  /** `str(i)` for any integer. */
  function IntToString(i: int): (s: string)
    ensures |s| > 0
    ensures i < 0 <==> s[0] == '-'
    ensures IsDigit(s[|s| - 1])
  {
    if i < 0 then "-" + NatToString(-i) else NatToString(i)
  }

  /** The value of a non-empty run of decimal digits. */
  function DigitsValue(s: string): nat
    requires forall i :: 0 <= i < |s| ==> IsDigit(s[i])
  {
    if |s| == 0 then 0 else DigitsValue(s[..|s| - 1]) * 10 + DigitValue(s[|s| - 1])
  }

  /**
   * `int(s)` for an optional sign followed by one or more ASCII digits; every other
   * string raises ValueError.
   */
  function ParseInt(s: string): (r: Result<int>)
    ensures r.Ok? ==> |s| > 0
    ensures r.Ok? && IsDigit(s[0]) ==> r.value >= 0
  {
    var signed := |s| > 0 && (s[0] == '-' || s[0] == '+');
    var sign := if signed && s[0] == '-' then -1 else 1;
    var digits := if signed then s[1..] else s;
    if |digits| > 0 && forall i :: 0 <= i < |digits| ==> IsDigit(digits[i]) then
      Ok(sign * DigitsValue(digits))
    else
      Err(ValueError("invalid literal for int() with base 10: '" + s + "'"))
  }

  lemma {:induction false} DigitsValueOfNatToString(n: nat)
    ensures DigitsValue(NatToString(n)) == n
  {
    if n >= 10 {
      var s := NatToString(n);
      assert s[..|s| - 1] == NatToString(n / 10);
      DigitsValueOfNatToString(n / 10);
    }
  }

  /** Reading back what `str` printed gives the same integer. */
  lemma ParseIntOfIntToString(i: int)
    ensures ParseInt(IntToString(i)) == Ok(i)
  {
    var s := IntToString(i);
    if i < 0 {
      var digits := NatToString(-i);
      assert s == "-" + digits;
      assert s[1..] == digits;
      DigitsValueOfNatToString(-i);
      assert ParseInt(s) == Ok(-1 * DigitsValue(digits));
    } else {
      assert s == NatToString(i);
      assert IsDigit(s[0]);
      DigitsValueOfNatToString(i);
      assert ParseInt(s) == Ok(DigitsValue(s));
    }
  }

  /** `str` is injective on integers, so distinct attempt indices give distinct keys. */
  lemma IntToStringInjective(i: int, j: int)
    requires IntToString(i) == IntToString(j)
    ensures i == j
  {
    ParseIntOfIntToString(i);
    ParseIntOfIntToString(j);
  }
}

=== FILE: testing_evaluation.dfy ===
/**
 * `decide_regenerate_code` of `pipeline/llm_operations/testing_evaluation.py`: the routing
 * function on the edge out of `test_generated_code`. The model's verdict comes from an
 * agent parameter; the route is a string, as in the source.
 */
module TestingEvaluation {
  import opened Wrappers
  import opened Messages
  import opened State
  import opened CodeTesting

  const RegenerateCode: string := "regenerate_code"
  const Judge: string := "judge"
  const Evaluate: string := "evaluate"
  const End: string := "end"

  /**
   * The route as the function is written: every way of not regenerating answers `"judge"`
   * outside a refactoring and `"end"` inside one.
   */
  function DecideRouteAsWritten(stdout: string, stderr: string, verdict: bool, attempts: int, max: int,
                                isRefactoring: bool): (route: string)
    ensures route == RegenerateCode <==> (stdout != "" || stderr != "") && verdict && attempts < max
    ensures route != RegenerateCode ==> route == (if isRefactoring then End else Judge)
    ensures route in {RegenerateCode, Judge, End}
  {
    if stdout != "" || stderr != "" then
      if verdict && attempts < max then RegenerateCode
      else if attempts == max then (if !isRefactoring then Judge else End)
      else (if !isRefactoring then Judge else End)
    else
      if !isRefactoring then Judge else End
  }

  /**
   * The route with `"evaluate"`, the key the graph's table has for leaving the loop
   * outside a refactoring, in place of `"judge"`. The rest of the model uses this one.
   */
  function DecideRoute(stdout: string, stderr: string, verdict: bool, attempts: int, max: int,
                       isRefactoring: bool): (route: string)
    ensures route == RegenerateCode <==> (stdout != "" || stderr != "") && verdict && attempts < max
    ensures route != RegenerateCode ==> route == (if isRefactoring then End else Evaluate)
    ensures route in {RegenerateCode, Evaluate, End}
  {
    if stdout != "" || stderr != "" then
      if verdict && attempts < max then RegenerateCode
      else if attempts == max then (if !isRefactoring then Evaluate else End)
      else (if !isRefactoring then Evaluate else End)
    else
      if !isRefactoring then Evaluate else End
  }

  /** The two differ exactly where the written one answers `"judge"`. */
  lemma CorrectionOnlyRenamesJudge(stdout: string, stderr: string, verdict: bool, attempts: int, max: int,
                                   isRefactoring: bool)
    ensures var written := DecideRouteAsWritten(stdout, stderr, verdict, attempts, max, isRefactoring);
            DecideRoute(stdout, stderr, verdict, attempts, max, isRefactoring) == (if written == Judge then Evaluate else written)
  {
  }

  /**
   * Right after a test run both stored outputs are non-empty, so the branch for "no output"
   * is never taken and the route depends only on the verdict, the budget and the flag.
   */
  lemma RouteAfterTest(result: ProcessResult, verdict: bool, attempts: int, max: int, isRefactoring: bool)
    ensures var (stdout, stderr) := StoredOutputs(result);
            DecideRoute(stdout, stderr, verdict, attempts, max, isRefactoring)
              == if verdict && attempts < max then RegenerateCode else if isRefactoring then End else Evaluate
  {
  }

  const DecideRegenerateCodeName: string := "decide_regenerate_code"

  /**
   * The node's routing function. When either output is non-empty the agent is asked for a
   * verdict and the metadata of its answer is appended; otherwise nothing changes. It never
   * writes any other field. The metadata of an answer without messages, or with metadata
   * that fails validation, raises.
   */
  method DecideRegenerateCode(state: AgentState, agent: seq<Message> -> AgentResponse<Regeneration>, max: int)
    returns (r: Result<string>)
    modifies state
    ensures old(state.codeTestStdout) == "" && old(state.codeTestStderr) == "" ==>
              && state.Snapshot() == old(state.Snapshot())
              && r == Ok(if old(state.isRefactoring) then End else Evaluate)
    ensures old(state.codeTestStdout) != "" || old(state.codeTestStderr) != "" ==>
              var response := agent([HumanMessage(DecideRegeneratePrompt(old(state.codeTestStdout), old(state.codeTestStderr)))]);
              var metadata := MetadataOfLast(response.messages, DecideRegenerateCodeName);
              && (metadata.Err? ==> r == Err(metadata.error) && state.Snapshot() == old(state.Snapshot()))
              && (metadata.Ok? ==>
                    && state.Snapshot() == old(state.Snapshot()).(llmMetadata := old(state.llmMetadata) + [metadata.value])
                    && r == Ok(DecideRoute(old(state.codeTestStdout), old(state.codeTestStderr),
                                           response.structured.shouldBeRegenerated,
                                           old(state.regenerationAttempts), max, old(state.isRefactoring))))
  {
    if state.codeTestStdout != "" || state.codeTestStderr != "" {
      var userPrompt := HumanMessage(DecideRegeneratePrompt(state.codeTestStdout, state.codeTestStderr));
      var response := agent([userPrompt]);
      var metadata := MetadataOfLast(response.messages, DecideRegenerateCodeName);
      if metadata.Err? {
        return Err(metadata.error);
      }
      state.llmMetadata := state.llmMetadata + [metadata.value];
      if response.structured.shouldBeRegenerated && state.regenerationAttempts < max {
        r := Ok(RegenerateCode);
      } else if state.regenerationAttempts == max {
        r := Ok(if !state.isRefactoring then Evaluate else End);
      } else {
        r := Ok(if !state.isRefactoring then Evaluate else End);
      }
    } else {
      r := Ok(if !state.isRefactoring then Evaluate else End);
    }
  }
}

=== FILE: wrappers.dfy ===
/** Failure-carrying results used where the Python code raises an exception. */
module Wrappers {

  datatype Option<+T> = None | Some(value: T)

  /** The Python exception classes the core can raise, with the data that identifies them. */
  datatype Error =
    | ValueError(message: string)
    | KeyError(key: string)
    | AttributeError(attribute: string)
    | IndexError
    | ValidationError(field: string)
    | FileExistsError(path: string)
    | IsADirectoryError(path: string)

  /** A value, or the exception raised instead of returning one. */
  datatype Result<+T> = Ok(value: T) | Err(error: Error) {
    predicate IsFailure() {
      Err?
    }

    function PropagateFailure<U>(): Result<U>
      requires Err?
    {
      Err(error)
    }

    function Extract(): T
      requires Ok?
    {
      value
    }
  }

  /** A computation that returns nothing useful, or the exception it raised. */
  datatype Outcome = Pass | Fail(error: Error)
}
